=== FILE: README.md ===
# Gift of the Givers relief API: registry and bearer-token model

This project models the core of the GiftOfTheGivers.ReliefApi service in Dafny.
The service keeps an in-memory store of users, incidents, volunteers,
assignments and donations. Its controllers create, read, list, filter and
update those records. Accounts log in for a signed JWT, and the JWT must
accompany every `[Authorize]` action.

The store is a `Registry` value holding five maps from identifier to record.
Each controller action is a pure step function from a store to a new store
and an HTTP outcome (`Response`: 201, 200, an `Ok(null)` result, which
ASP.NET's default formatters send as 204 No Content, 404, 400, 409 or 401).
Actions that enumerate the store are methods, because enumerating a map
needs choice. Their contracts say exactly which records come back, each
once. The incident and donation listings and the CSV export also promise
newest first; the by-volunteer scan of assignments promises no order.

The token path has two parts:

- `JwtTokens`: issuing a token and the host's validation rule.
- `Gate`: where the token is read from, either the `Authorization: Bearer`
  header of section 2.1 of RFC 6750 or the `token` query parameter.
  `Gate.Authenticate` picks the token in the order the program actually
  uses, in which a non-blank `token` query value wins over the header (see
  "## Findings"). `Gate.AuthenticateIntended` is the header-first order the
  code evidently meant. `Api.Protected` and `Auth.MeRequest` are built on
  `Gate.Authenticate`, so they describe the program as it behaves.

`Api.Protected` puts the gate in front of the seven mutating `[Authorize]`
actions of the record controllers. `Auth.MeRequest` does the same for
`me`. `Scenarios` chains actions the way the integration tests do.

The following are not opened; they are parameters of the operations:

- BCrypt: `Auth.Hasher`, assumed sound, so a digest verifies its own password.
- HMAC-SHA256 and the compact JWT serialisation: `JwtTokens.Crypto`, assumed
  well formed, so a token encodes to compact text that decodes back.
- `Guid.NewGuid()`: a fresh identifier argument.
- `DateTime.UtcNow`: a `now` argument in whole seconds.

Token lifetime follows the Microsoft.IdentityModel rule. With zero clock skew,
a token is refused only once `exp` lies strictly before the current time. The
wording of section 4.1.4 of RFC 7519 would already refuse it at `exp` itself.

## Model

| member | source | states |
|---|---|---|
| Assignments.Create | Controllers/AssignmentsController.cs:15-26 | The request is 201 if and only if both the volunteer and the incident exist. Otherwise it is 400 "Invalid volunteer or incident" and the store is unchanged. On success exactly one assignment is added, under the fresh id, stamped with `now`; its other fields are as sent, and no other collection changes. |
| Assignments.Get | Controllers/AssignmentsController.cs:29-33 | 404 exactly when the id is absent; otherwise 200 with the stored assignment. |
| Assignments.ByVolunteer | Controllers/AssignmentsController.cs:35-37 | The result holds every stored assignment of that volunteer, each exactly once, and no other assignment. |
| Assignments.Complete | Controllers/AssignmentsController.cs:43-54 | Absent id gives 404. With `Completed = false` the record comes back unchanged. With `true` only that record changes: its status becomes "Completed" and its completion date becomes `now`, while its other fields are kept. |
| Assignments.GetAfterCreate | Controllers/AssignmentsController.cs:15-33 | The fresh id can be read back exactly when creation was admitted, and then it gives the record creation returned. Every other id reads as before. |
| Assignments.GetAfterComplete | Controllers/AssignmentsController.cs:29-54 | Reading an id after a completion request gives exactly that request's answer: the saved record, or 404 for both. Every other id reads as before. |
| Assignments.CompletionIsOneWay | Controllers/AssignmentsController.cs:45-51 | No completion request turns a completed assignment back to another status. |
| Assignments.CreatePreservesValid | Controllers/AssignmentsController.cs:17-24 | Creating an assignment keeps the store invariant, including "every assignment's volunteer and incident exist". |
| Assignments.CompletePreservesValid | Controllers/AssignmentsController.cs:45-53 | Completing keeps the store invariant. |
| Incidents.Create | Controllers/IncidentsController.cs:16-23 | 201 with one incident added under the fresh id. `createdAt` is `now`, the other fields are as sent, and nothing else changes. |
| Incidents.List | Controllers/IncidentsController.cs:26-32 | Returns exactly the incidents matching every non-blank filter, each once, newest `createdAt` first. A blank filter does not restrict. |
| Incidents.Get | Controllers/IncidentsController.cs:35-39 | 404 exactly when the id is absent; otherwise 200 with the stored incident. |
| Incidents.UpdateStatus | Controllers/IncidentsController.cs:45-52 | 404 when the id is absent. Otherwise only that incident's status changes, to the value sent verbatim. |
| Incidents.GetAfterCreate | Controllers/IncidentsController.cs:16-39 | Reading back the fresh id gives the incident creation returned. Every other id reads as before. |
| Incidents.GetAfterUpdateStatus | Controllers/IncidentsController.cs:35-52 | Reading an id after a status update gives exactly the update's answer: the updated record, or 404 for both. Every other id reads as before. |
| Incidents.UpdateStatusIdempotent | Controllers/IncidentsController.cs:47-51 | Setting the same status twice gives the same store and answer as setting it once. |
| Incidents.AnyTransitionAllowed | Controllers/IncidentsController.cs:49 | The action stores any status value that reaches it, from any current status: there is no transition table. |
| Incidents.ExportCsv | Controllers/IncidentsController.cs:55-67 | The first line is the fixed header. It is followed by one row per incident matching the status filter, each exactly once, newest first. |
| Incidents.BlankFilterSelectsAll | Controllers/IncidentsController.cs:58 | A blank status filter selects every stored incident. |
| Incidents.CreatePreservesValid | Controllers/IncidentsController.cs:18-21 | Creating an incident keeps the store invariant. |
| Incidents.UpdateStatusPreservesValid | Controllers/IncidentsController.cs:47-50 | A status update keeps the store invariant. |
| Donations.Create | Controllers/DonationsController.cs:15-22 | 201 with one donation added under the fresh id. `createdAt` is `now`, the other fields are as sent, and nothing else changes. |
| Donations.Get | Controllers/DonationsController.cs:24-26 | Never 404: `Ok` with the donation when stored, `Ok(null)` (sent as 204) when not. |
| Donations.GetAfterCreate | Controllers/DonationsController.cs:15-26 | Reading back the fresh id gives the donation creation returned. Every other id reads as before. |
| Donations.GetAfterUpdateStatus | Controllers/DonationsController.cs:24-47 | Reading a stored id after a status update gives the update's answer, the updated record. An absent id gives `Ok(null)` where the update gave 404. Every other id reads as before. |
| Donations.List | Controllers/DonationsController.cs:29-34 | Returns exactly the donations with the requested status, or all of them when the filter is blank, each once, newest first. |
| Donations.UpdateStatus | Controllers/DonationsController.cs:40-47 | 404 when the id is absent. Otherwise only that donation's status changes, to the value sent verbatim. |
| Donations.UpdateStatusIdempotent | Controllers/DonationsController.cs:42-46 | Setting the same status twice equals setting it once. |
| Donations.StatusMoveReflectedInListings | Controllers/DonationsController.cs:29-46 | After a donation moves from one non-blank status to another, the listing for the new status contains it and the listing for the old status does not. |
| Donations.CreatePreservesValid | Controllers/DonationsController.cs:17-20 | Creating a donation keeps the store invariant. |
| Donations.UpdateStatusPreservesValid | Controllers/DonationsController.cs:42-45 | A status update keeps the store invariant. |
| Volunteers.Create | Controllers/VolunteersController.cs:15-21 | 201 with one volunteer added under the fresh id; every other field is kept as sent. |
| Volunteers.Get | Controllers/VolunteersController.cs:23-25 | Never 404: `Ok` with the volunteer when stored, `Ok(null)` (sent as 204) when not. |
| Volunteers.GetAfterCreate | Controllers/VolunteersController.cs:15-25 | Reading a just-created volunteer by its new id returns that volunteer. |
| Volunteers.CreatePreservesValid | Controllers/VolunteersController.cs:17-19 | Creating a volunteer keeps the store invariant. |
| Models.EmptyRegistryValid | Data/ReliefDbContext.cs:10-14 | The empty store satisfies the invariant: records under their own ids, distinct emails, assignment references that resolve. |
| Listing.SelectNewestFirst | Controllers/IncidentsController.cs:31 | The enumeration behind `OrderByDescending(CreatedAt)`. Every selected record appears exactly once and nothing else does, in non-increasing creation time. |
| Auth.Register | Controllers/AuthController.cs:19-34 | 409 "Email already exists." if and only if some user already holds the email, with the store unchanged. Otherwise one user is added with the given name and email, the salted digest of the password and the role "User". The response echoes the id, name and email but not the digest. |
| Auth.RegisterPreservesValid | Controllers/AuthController.cs:21-32 | Registration keeps emails pairwise distinct and the rest of the invariant. |
| Auth.FindByEmail | Controllers/AuthController.cs:39 | Finds nothing exactly when no user holds the email. Otherwise it returns a holder, and under distinct emails the only one. |
| Auth.Login | Controllers/AuthController.cs:37-45 | The answer is either 200 with a token or the single 401 "Invalid credentials", the same for an unknown email and a wrong password. A 200 carries the encoded token issued for the holder of the email whose digest verifies the password. Under distinct emails it is 200 if and only if the password verifies. |
| Auth.Me | Controllers/AuthController.cs:57-65 | 401 when the principal has no non-blank email claim. 404 when no user holds that email. Otherwise 200 with that user's id, name, email and role. |
| Auth.MeRequest | Controllers/AuthController.cs:47-65 | Without a principal the answer is a bare 401. With a principal whose email claim is missing or blank, a bare 401; with a non-blank email nobody holds, 404. A 200 is the profile of the user holding the principal's email. An authenticated caller whose non-blank email is registered always gets 200. |
| JwtTokens.OptionsFrom | Services/JwtTokenService.cs:10-16 | Key, issuer and audience come from the configuration section. The lifetime is the configured minutes, or 120 when none is configured. |
| JwtTokens.Create | Services/JwtTokenService.cs:22-39 | `sub`, `email`, `name` and role claims are the user's id, email, full name and role. Issuer and audience are as configured. `exp` is exactly the configured minutes after `now`. The signature is the one the configured key gives those claims. |
| JwtTokens.ValidationFrom | Program.cs:22-32 | Issuer and audience validation off, signing-key validation on, zero clock skew, same key as the issuer. |
| JwtTokens.Accepts | Program.cs:22-32 | The bearer handler's acceptance rule for a decoded token: the signature must be the one the signing key gives its claims; issuer and audience are compared only when their validation is switched on; and the token must not be expired, meaning `now - clockSkew <= exp`. |
| JwtTokens.DefaultLifetime | Services/JwtTokenService.cs:15 | Without a configured lifetime a token expires 7200 seconds after issue. |
| JwtTokens.ExpiryAfterIssue | Services/JwtTokenService.cs:35 | A positive lifetime puts `exp` strictly after the issue time. |
| JwtTokens.IssuedTokenAccepted | Program.cs:14-31 | A token the service issued is accepted from issue until `exp`, whatever issuer and audience are configured. |
| JwtTokens.ExpiredRejected | Program.cs:31 | With zero skew, any token whose `exp` lies before `now` is refused, however well signed. |
| JwtTokens.ForeignKeyRejected | Program.cs:27-30 | A token signed under a key that signs its claims differently is refused. |
| JwtTokens.ForeignIssuerAccepted | Program.cs:24-26 | A correctly signed, unexpired token naming any other issuer and audience is still accepted. |
| JwtTokens.CreateIgnoresDigest | Services/JwtTokenService.cs:22-39 | The issued token does not depend on the password digest. |
| Gate.OnMessageReceived | Program.cs:37-48 | A token already on the context stays. Otherwise a non-blank `token` query value becomes the token. A blank one leaves the context as it was. |
| Gate.BearerToken | Program.cs:19-20 | The bearer scheme's header reading. A token is found if and only if the header starts with a case-insensitive "Bearer " prefix followed by a non-blank remainder. The token is then the trimmed remainder, never empty. |
| Gate.HandlerToken | Program.cs:37-45 | As written: a non-blank query value is the token whatever the header says, and only otherwise is the header token used. |
| Gate.QueryDisplacesHeaderExample | Program.cs:39-45 | For "Bearer a" in the header and `token=b` in the query, with distinct compact tokens, the code as written uses `b`, while the header-first order uses `a`. |
| Gate.PresentedToken | Program.cs:37-48 | Corrected order: the header token when there is one, else a non-blank query value, else none. |
| Gate.OrdersAgreeWithoutHeader | Program.cs:39-45 | Without a header token, the written order and the corrected order pick the same token. |
| Gate.Principal | Program.cs:22-32 | The bearer scheme's verdict on the token it picked. There is a principal if and only if the token decodes and the validation parameters accept it, and the principal is that token's claims. |
| Gate.Authenticate | Program.cs:19-48 | As written: the token is picked in the handler's order, query first. There is a principal if and only if that token decodes and is accepted, and it is that token's claims. |
| Gate.AuthenticateIntended | Program.cs:34-45 | The same verdict on the token picked in the intended header-first order. |
| Gate.AuthenticationsAgreeWithoutHeader | Program.cs:39-45 | Without a header token, the written and the intended gate establish the same principal. |
| Gate.NoTokenNoPrincipal | Program.cs:39-45 | With no header token and a blank or absent query token there is no principal, in either order. |
| Gate.IssuedTokenAuthenticates | Program.cs:14-45 | As written, until expiry a token the service issued authenticates its user's claims in two cases: as `?token=` whatever the header holds, and as `Authorization: Bearer` when the query holds no usable token. |
| Gate.IssuedTokenAuthenticatesIntended | Program.cs:34-45 | In the intended order the issued token authenticates as `Authorization: Bearer` whatever the query holds, and as `?token=` when there is no header token. |
| Gate.HeaderTokenDisplaced | Program.cs:37-45 | A valid issued token in the header next to a non-blank query value that does not decode: the program as written refuses the request, and the intended order accepts it. |
| Api.Protected | Program.cs:96-97 | An `[Authorize]` action runs only for a request with a principal. Otherwise the answer is a bare 401 and the store is untouched. |
| Api.AnonymousRequestRefused | Program.cs:37-48 | A request with neither a header token nor a usable query token gets 401 and changes nothing. |
| Api.ExecutePreservesValid | Data/ReliefDbContext.cs:10-14 | Every mutating action keeps the store invariant. |
| Api.ProtectedPreservesValid | Program.cs:96-97 | Refused and authorised requests alike keep the store invariant. |
| Api.DanglingAssignmentRefused | Controllers/AssignmentsController.cs:13-19 | An assignment naming a missing volunteer or incident gets 401 or 400 and never enters the store. |
| Scenarios.RegisterLoginMe | Tests/IntegrationTests/AuthIntegrationTests.cs:70-94 | Register, log in, then call `me` with the token before it expires: the answer is the new user's profile with role "User". |
| Scenarios.LoginFailuresAlike | Controllers/AuthController.cs:39-41 | A wrong password and an unknown email get the identical 401 "Invalid credentials". |
| Scenarios.AssignmentLifecycle | Tests/IntegrationTests/VolunteersAndAssignmentsIntegrationTests.cs:142-177 | The volunteer and incident are created from bodies that set only names and type; they are stored "Available", and "Open" with severity "Low". The new assignment is "Assigned" with no completion date. Completing it makes it "Completed", dated no earlier than its assignment, and the store stays valid. |
| Scenarios.ReportIncident | Models/Incident.cs:5-12 | An incident reported with only its type is stored "Open" with severity "Low". It reads back by its id and appears in the listing filtered by those two values. |
| Scenarios.DonationStatusFlow | Tests/IntegrationTests/CrossModuleIntegrationTests.cs:318-354 | A donation pledged with only donor, item and quantity is stored in "units" and listed under "Pledged". After it moves to "Received" it is listed there and no longer under "Pledged". |

## Left out

- Entity Framework Core and the in-memory database provider: a dictionary of records per `DbSet` stands in for them, and `SaveChangesAsync` is the end of the step.
- ASP.NET routing, model binding, JSON serialisation and `CreatedAtAction` location headers: a response is its status and its body value.
- Concurrency: requests are steps applied one at a time. Two concurrent registrations of one email, which the store does not prevent, are not modelled.
- `Guid.NewGuid()` and `DateTime.UtcNow`: these are arguments. Time is whole seconds, so sub-second ordering and `DateTime.AddMinutes` overflow are not modelled.
- Auth.Register: does not state that the stored digest differs from the password, because BCrypt is an opaque parameter.
- BCrypt salt generation and cost factor: the salt is an argument of `hash`.
- HMAC-SHA256, base64url and the compact three-part JWT format: they are the opaque `Crypto` functions. The HMAC key-length requirement and the key-validation internals of `ValidateIssuerSigningKey` are not modelled.
- The `sub` claim is kept as the user's `Guid` rather than its string form.
- Tokens without an `exp` claim, and the `nbf`/`iat` claims, are not modelled: every token the service issues carries `exp`.
- The `Authorization` header rewrite inside `me` (Controllers/AuthController.cs:52-55) runs after authentication and cannot affect it, so it is not modelled.
- A single `token` query value and a single `Authorization` header are modelled. `Query["token"].ToString()` joins repeated values with commas; repeated parameters and headers are not modelled.
- ASP.NET model validation is not modelled. Non-nullable body properties carry an implicit `[Required]`, so a missing (null) required field is answered with 400 before the action runs. Empty and blank strings pass, because the implicit `[Required]` allows empty strings, and the actions store them. Each action is modelled from the point where its body has bound.
- Assignments.ByVolunteer: the order of the result is the store's own enumeration order, which is unspecified, because `Where` without `OrderBy` promises none.
- The choice between the `email` claim and `ClaimTypes.Email` in `me`: a principal has one optional email.
- Incidents.ExportCsv: rows are records, not formatted text, so number formatting of coordinates, quoting of `needs` and the round-trip date format are left out. The UTF-8 file result is left out too.
- Incident coordinates are `real` values carried unchanged; IEEE doubles are not modelled.
- Listing.SelectNewestFirst: the relative order of records with equal `createdAt` is left unspecified. The database's stable order is not modelled.
- Auth.FindByEmail: when emails repeat, which match `FirstOrDefault` returns is left unspecified. The store invariant keeps emails distinct in any case.
- Swagger generation and its operation filters, HTTPS redirection and the hosting pipeline are out of scope.

## Findings

| source | as written | input that shows it | evidently intended | confidence | as-written member | corrected member |
|---|---|---|---|---|---|---|
| Program.cs:39-45 | The bearer handler raises `OnMessageReceived` before it reads the `Authorization` header, so `context.Token` is always empty there. Any non-blank `?token=` therefore becomes the token, even when a bearer header is present. | Header `Authorization: Bearer A` plus query `?token=B`, for distinct compact tokens A and B: the request is judged on B. | The query parameter is a fallback for when no header is sent (the comment at Program.cs:34), so the header token A is used. | not executed | Gate.HandlerToken, Gate.Authenticate, Gate.HeaderTokenDisplaced | Gate.PresentedToken, Gate.AuthenticateIntended |

=== FILE: api.dfy ===
/** The `[Authorize]` actions behind the bearer gate: a request either
    carries a token the host accepts, and the action runs, or it is turned
    away with a bare 401 before any controller code touches the store. */
module Api {
  import opened Common
  import opened Models
  import JwtTokens
  import Gate
  import Assignments
  import Incidents
  import Donations
  import Volunteers

  /** The mutating actions marked `[Authorize]`, with their request bodies. */
  datatype Command =
    | CreateIncident(incident: Incident)
    | UpdateIncidentStatus(incidentId: Guid, status: string)
    | CreateVolunteer(volunteer: Volunteer)
    | CreateDonation(donation: Donation)
    | UpdateDonationStatus(donationId: Guid, status: string)
    | CreateAssignment(assignment: Assignment)
    | CompleteAssignment(assignmentId: Guid, completed: bool)

  /** The entity a response carries. */
  datatype Body =
    | IncidentBody(incident: Incident)
    | VolunteerBody(volunteer: Volunteer)
    | DonationBody(donation: Donation)
    | AssignmentBody(assignment: Assignment)

  /** A response with its entity wrapped as a `Body`. */
  function Wrap<T>(r: Response<T>, f: T -> Body): (w: Response<Body>)
    ensures r.Created? <==> w.Created?
    ensures r.Ok? <==> w.Ok?
    ensures r.OkNull? <==> w.OkNull?
    ensures r.NotFound? <==> w.NotFound?
    ensures r.BadRequest? <==> w.BadRequest?
    ensures r.Conflict? <==> w.Conflict?
    ensures r.Unauthorized? <==> w.Unauthorized?
    ensures r.Created? || r.Ok? ==> w.value == f(r.value)
    ensures r.BadRequest? || r.Conflict? ==> w.message == r.message
    ensures r.Unauthorized? ==> w.body == r.body
  {
    match r
    case Created(v) => Created(f(v))
    case Ok(v) => Ok(f(v))
    case OkNull => OkNull
    case NotFound => NotFound
    case BadRequest(m) => BadRequest(m)
    case Conflict(m) => Conflict(m)
    case Unauthorized(b) => Unauthorized(b)
  }

  /** The identifier drawn for a creating command is not yet in use. */
  predicate FreshFor(s: Registry, cmd: Command, freshId: Guid)
  {
    match cmd
    case CreateIncident(_) => freshId !in s.incidents
    case CreateVolunteer(_) => freshId !in s.volunteers
    case CreateDonation(_) => freshId !in s.donations
    case CreateAssignment(_) => freshId !in s.assignments
    case _ => true
  }

  /** The controller action a command names. */
  function Execute(s: Registry, cmd: Command, now: Time, freshId: Guid): (Registry, Response<Body>)
    requires FreshFor(s, cmd, freshId)
  {
    match cmd
    case CreateIncident(inc) =>
      var (s', r) := Incidents.Create(s, inc, now, freshId); (s', Wrap(r, (i: Incident) => IncidentBody(i)))
    case UpdateIncidentStatus(id, status) =>
      var (s', r) := Incidents.UpdateStatus(s, id, status); (s', Wrap(r, (i: Incident) => IncidentBody(i)))
    case CreateVolunteer(v) =>
      var (s', r) := Volunteers.Create(s, v, freshId); (s', Wrap(r, (x: Volunteer) => VolunteerBody(x)))
    case CreateDonation(d) =>
      var (s', r) := Donations.Create(s, d, now, freshId); (s', Wrap(r, (x: Donation) => DonationBody(x)))
    case UpdateDonationStatus(id, status) =>
      var (s', r) := Donations.UpdateStatus(s, id, status); (s', Wrap(r, (x: Donation) => DonationBody(x)))
    case CreateAssignment(a) =>
      var (s', r) := Assignments.Create(s, a, now, freshId); (s', Wrap(r, (x: Assignment) => AssignmentBody(x)))
    case CompleteAssignment(id, completed) =>
      var (s', r) := Assignments.Complete(s, id, completed, now); (s', Wrap(r, (x: Assignment) => AssignmentBody(x)))
  }

  /** A request to an `[Authorize]` action: 401 and an untouched store
      unless the gate yields a principal, else the action's own outcome. */
  function Protected(s: Registry, authorization: Option<string>, query: Option<string>,
                     p: JwtTokens.ValidationParameters, crypto: JwtTokens.Crypto,
                     now: Time, cmd: Command, freshId: Guid): (r: (Registry, Response<Body>))
    requires FreshFor(s, cmd, freshId)
    ensures Gate.Authenticate(authorization, query, p, crypto, now).None? ==> r == (s, Unauthorized(None))
    ensures Gate.Authenticate(authorization, query, p, crypto, now).Some? ==> r == Execute(s, cmd, now, freshId)
  {
    if Gate.Authenticate(authorization, query, p, crypto, now).None? then (s, Unauthorized(None))
    else Execute(s, cmd, now, freshId)
  }

  /** A request with neither a bearer header nor a usable `token` query
      value is refused with 401 and changes nothing. */
  lemma AnonymousRequestRefused(s: Registry, authorization: Option<string>, query: Option<string>,
                                p: JwtTokens.ValidationParameters, crypto: JwtTokens.Crypto,
                                now: Time, cmd: Command, freshId: Guid)
    requires FreshFor(s, cmd, freshId)
    requires Gate.BearerToken(authorization).None? && IsBlank(Gate.QueryValue(query))
    ensures Protected(s, authorization, query, p, crypto, now, cmd, freshId) == (s, Unauthorized(None))
  {
    Gate.NoTokenNoPrincipal(authorization, query, p, crypto, now);
  }

  /** Every action keeps the store invariant: records under their own ids,
      distinct emails, assignment references that resolve. */
  lemma ExecutePreservesValid(s: Registry, cmd: Command, now: Time, freshId: Guid)
    requires Valid(s) && FreshFor(s, cmd, freshId)
    ensures Valid(Execute(s, cmd, now, freshId).0)
  {
    match cmd
    case CreateIncident(inc) => Incidents.CreatePreservesValid(s, inc, now, freshId);
    case UpdateIncidentStatus(id, status) => Incidents.UpdateStatusPreservesValid(s, id, status);
    case CreateVolunteer(v) => Volunteers.CreatePreservesValid(s, v, freshId);
    case CreateDonation(d) => Donations.CreatePreservesValid(s, d, now, freshId);
    case UpdateDonationStatus(id, status) => Donations.UpdateStatusPreservesValid(s, id, status);
    case CreateAssignment(a) => Assignments.CreatePreservesValid(s, a, now, freshId);
    case CompleteAssignment(id, completed) => Assignments.CompletePreservesValid(s, id, completed, now);
  }

  /** The store invariant survives any authenticated or refused request. */
  lemma ProtectedPreservesValid(s: Registry, authorization: Option<string>, query: Option<string>,
                                p: JwtTokens.ValidationParameters, crypto: JwtTokens.Crypto,
                                now: Time, cmd: Command, freshId: Guid)
    requires Valid(s) && FreshFor(s, cmd, freshId)
    ensures Valid(Protected(s, authorization, query, p, crypto, now, cmd, freshId).0)
  {
    ExecutePreservesValid(s, cmd, now, freshId);
  }

  /** The referential rule, end to end: an assignment naming a volunteer or
      an incident that is not stored is refused with 400, whoever asks, and
      no assignment appears. */
  lemma DanglingAssignmentRefused(s: Registry, authorization: Option<string>, query: Option<string>,
                                  p: JwtTokens.ValidationParameters, crypto: JwtTokens.Crypto,
                                  now: Time, a: Assignment, freshId: Guid)
    requires freshId !in s.assignments
    requires a.volunteerId !in s.volunteers || a.incidentId !in s.incidents
    ensures var r := Protected(s, authorization, query, p, crypto, now, CreateAssignment(a), freshId);
      && r.0 == s
      && (r.1 == Unauthorized(None) || r.1 == BadRequest(Assignments.InvalidReferences))
  {
  }
}

=== FILE: assignments.dfy ===
/** `AssignmentsController`: creation guarded by the referential check,
    lookup, the by-volunteer scan and one-way completion. */
module Assignments {
  import opened Common
  import opened Models
  import Listing

  const InvalidReferences := "Invalid volunteer or incident"

  /** POST api/assignments. Admitted only when both the volunteer and the
      incident are stored; the stored record gets the fresh id and the
      current time and keeps every other submitted field. */
  function Create(s: Registry, a: Assignment, now: Time, freshId: Guid): (r: (Registry, Response<Assignment>))
    requires freshId !in s.assignments
    ensures a.volunteerId !in s.volunteers ==> r == (s, BadRequest(InvalidReferences))
    ensures a.incidentId !in s.incidents ==> r == (s, BadRequest(InvalidReferences))
    ensures r.1.Created? <==> a.volunteerId in s.volunteers && a.incidentId in s.incidents
    ensures r.1.Created? ==>
      && AddsOne(s.assignments, r.0.assignments, freshId)
      && r.0 == s.(assignments := r.0.assignments)
      && r.1.value == r.0.assignments[freshId]
      && r.1.value.assignmentId == freshId
      && r.1.value.assignedDate == now
      && r.1.value.(assignmentId := a.assignmentId, assignedDate := a.assignedDate) == a
  {
    if a.volunteerId !in s.volunteers || a.incidentId !in s.incidents then
      (s, BadRequest(InvalidReferences))
    else
      var stored := a.(assignmentId := freshId, assignedDate := now);
      (s.(assignments := s.assignments[freshId := stored]), Created(stored))
  }

  /** GET api/assignments/{id}. */
  function Get(s: Registry, id: Guid): (r: Response<Assignment>)
    ensures r.NotFound? <==> id !in s.assignments
    ensures id in s.assignments ==> r == Ok(s.assignments[id])
  {
    if id in s.assignments then Ok(s.assignments[id]) else NotFound
  }

  /** GET api/assignments/by-volunteer/{volunteerId}: exactly the stored
      assignments of that volunteer, in the store's order. */
  method ByVolunteer(s: Registry, volunteerId: Guid) returns (r: seq<Assignment>)
    ensures Listing.Lists(s.assignments, (a: Assignment) => a.volunteerId == volunteerId, r)
    ensures forall i :: 0 <= i < |r| ==> r[i].volunteerId == volunteerId && r[i] in s.assignments.Values
    ensures forall k :: k in s.assignments && s.assignments[k].volunteerId == volunteerId ==> s.assignments[k] in r
  {
    var keep := (a: Assignment) => a.volunteerId == volunteerId;
    r := Listing.Select(s.assignments, keep);
    forall i | 0 <= i < |r|
      ensures r[i].volunteerId == volunteerId && r[i] in s.assignments.Values
    {
      Listing.ListsSound(s.assignments, keep, r, i);
    }
    forall k | k in s.assignments && s.assignments[k].volunteerId == volunteerId
      ensures s.assignments[k] in r
    {
      Listing.ListsComplete(s.assignments, keep, r, k);
    }
  }

  /** PUT api/assignments/{id}/complete. `true` stamps the assignment
      "Completed" at `now`; `false` saves it untouched. */
  function Complete(s: Registry, id: Guid, completed: bool, now: Time): (r: (Registry, Response<Assignment>))
    ensures id !in s.assignments ==> r == (s, NotFound)
    ensures id in s.assignments && !completed ==> r == (s, Ok(s.assignments[id]))
    ensures id in s.assignments && completed ==>
      && r.0 == s.(assignments := r.0.assignments)
      && ChangesOnly(s.assignments, r.0.assignments, id)
      && r.1 == Ok(r.0.assignments[id])
      && r.0.assignments[id].status == CompletedStatus
      && r.0.assignments[id].completedDate == Some(now)
      && r.0.assignments[id].(status := s.assignments[id].status,
                              completedDate := s.assignments[id].completedDate) == s.assignments[id]
  {
    if id !in s.assignments then (s, NotFound)
    else
      var a := s.assignments[id];
      if completed then
        var a' := a.(status := CompletedStatus, completedDate := Some(now));
        (s.(assignments := s.assignments[id := a']), Ok(a'))
      else (s, Ok(a))
  }

  /** An assignment can be read back under the fresh id exactly when its
      creation was admitted, and then it is the record creation returned;
      every other id reads as before. */
  lemma GetAfterCreate(s: Registry, a: Assignment, now: Time, freshId: Guid, other: Guid)
    requires freshId !in s.assignments
    ensures Get(Create(s, a, now, freshId).0, freshId).Ok?
        <==> a.volunteerId in s.volunteers && a.incidentId in s.incidents
    ensures Create(s, a, now, freshId).1.Created? ==>
      Get(Create(s, a, now, freshId).0, freshId) == Ok(Create(s, a, now, freshId).1.value)
    ensures other != freshId ==> Get(Create(s, a, now, freshId).0, other) == Get(s, other)
  {
  }

  /** Reading an assignment after a completion request gives exactly the
      request's own answer (the saved record, or 404 for both); every other
      id reads as before. */
  lemma GetAfterComplete(s: Registry, id: Guid, completed: bool, now: Time, other: Guid)
    ensures Get(Complete(s, id, completed, now).0, id) == Complete(s, id, completed, now).1
    ensures other != id ==> Get(Complete(s, id, completed, now).0, other) == Get(s, other)
  {
  }

  /** Completion never reverts: once "Completed", any further completion
      call, with either flag, leaves the status "Completed". */
  lemma CompletionIsOneWay(s: Registry, id: Guid, completed: bool, now: Time)
    requires id in s.assignments && s.assignments[id].status == CompletedStatus
    ensures Complete(s, id, completed, now).0.assignments[id].status == CompletedStatus
  {
  }

  /** Creation keeps the store invariant: the new record sits under its own
      id and its references resolve, and no other map moves. */
  lemma CreatePreservesValid(s: Registry, a: Assignment, now: Time, freshId: Guid)
    requires Valid(s) && freshId !in s.assignments
    ensures Valid(Create(s, a, now, freshId).0)
  {
    var s' := Create(s, a, now, freshId).0;
    if a.volunteerId in s.volunteers && a.incidentId in s.incidents {
      assert forall k :: k in s'.assignments ==> k == freshId || k in s.assignments;
    }
  }

  /** Completion keeps the store invariant. */
  lemma CompletePreservesValid(s: Registry, id: Guid, completed: bool, now: Time)
    requires Valid(s)
    ensures Valid(Complete(s, id, completed, now).0)
  {
  }
}

=== FILE: auth.dfy ===
/** `AuthController`: registration with unique emails, login that answers
    every failure alike, and the profile of the authenticated caller. */
module Auth {
  import opened Common
  import opened Models
  import JwtTokens
  import Gate

  /** BCrypt, opaque: `hash(password, salt)` is the digest `HashPassword`
      produces with the salt it draws, `verify` is `BCrypt.Verify`. */
  datatype Hasher = Hasher(hash: (string, nat) -> string, verify: (string, string) -> bool)

  /** The one property of BCrypt the model relies on. */
  ghost predicate Sound(h: Hasher)
  {
    forall password, salt :: h.verify(password, h.hash(password, salt))
  }

  /** The body of a successful registration: no digest in it. */
  datatype Registered = Registered(userId: Guid, fullName: string, email: string)

  /** The body of a successful login. */
  datatype LoginBody = LoginBody(token: string)

  /** The body of `me`. */
  datatype Profile = Profile(userId: Guid, fullName: string, email: string, role: string)

  /** The fields `me` reports: everything but the digest. */
  function ProfileOf(u: User): Profile
  {
    Profile(u.userId, u.fullName, u.email, u.role)
  }

  const EmailExists := "Email already exists."
  const InvalidCredentials := "Invalid credentials"

  /** Some user holds `email`. */
  ghost predicate EmailTaken(users: map<Guid, User>, email: string)
  {
    exists k :: k in users && users[k].email == email
  }

  /** POST api/auth/register. */
  function Register(s: Registry, fullName: string, email: string, password: string,
                    h: Hasher, salt: nat, freshId: Guid): (r: (Registry, Response<Registered>))
    requires freshId !in s.users
    ensures EmailTaken(s.users, email) ==> r == (s, Conflict(EmailExists))
    ensures !EmailTaken(s.users, email) ==>
      && r.1 == Ok(Registered(freshId, fullName, email))
      && r.0 == s.(users := r.0.users)
      && AddsOne(s.users, r.0.users, freshId)
      && r.0.users[freshId].userId == freshId
      && r.0.users[freshId].fullName == fullName
      && r.0.users[freshId].email == email
      && r.0.users[freshId].passwordHash == h.hash(password, salt)
      && r.0.users[freshId].role == DefaultRole
  {
    if exists k :: k in s.users && s.users[k].email == email then
      (s, Conflict(EmailExists))
    else
      var user := User(freshId, fullName, email, h.hash(password, salt), DefaultRole);
      (s.(users := s.users[freshId := user]), Ok(Registered(freshId, fullName, email)))
  }

  /** Registration keeps emails pairwise distinct (and the rest of the
      store invariant). */
  lemma RegisterPreservesValid(s: Registry, fullName: string, email: string, password: string,
                               h: Hasher, salt: nat, freshId: Guid)
    requires Valid(s) && freshId !in s.users
    ensures Valid(Register(s, fullName, email, password, h, salt, freshId).0)
  {
    var s' := Register(s, fullName, email, password, h, salt, freshId).0;
    if !EmailTaken(s.users, email) {
      forall j, k | j in s'.users && k in s'.users && s'.users[j].email == s'.users[k].email
        ensures j == k
      {
        if j != freshId && k != freshId {
          assert s.users[j].email == s.users[k].email;
        }
      }
    }
  }

  /** `FirstOrDefault(u => u.Email == email)`: some user holding the email,
      the only one when emails are distinct. */
  method FindByEmail(users: map<Guid, User>, email: string) returns (found: Option<User>)
    ensures found.None? <==> !EmailTaken(users, email)
    ensures found.Some? ==> exists k :: k in users && users[k] == found.value && found.value.email == email
    ensures found.Some? && EmailsDistinct(users) ==>
      forall k :: k in users && users[k].email == email ==> found.value == users[k]
  {
    if exists k :: k in users && users[k].email == email {
      var k :| k in users && users[k].email == email;
      found := Some(users[k]);
    } else {
      found := None;
    }
  }

  /** POST api/auth/login. An unknown email and a wrong password give the
      same 401; the store is only read. */
  method Login(s: Registry, email: string, password: string, h: Hasher,
               o: JwtTokens.JwtOptions, crypto: JwtTokens.Crypto, now: Time) returns (r: Response<LoginBody>)
    ensures r.Ok? || r == Unauthorized(Some(InvalidCredentials))
    ensures !EmailTaken(s.users, email) ==> r == Unauthorized(Some(InvalidCredentials))
    ensures r.Ok? ==> exists k :: k in s.users && s.users[k].email == email
                        && h.verify(password, s.users[k].passwordHash)
                        && r.value == LoginBody(crypto.encode(JwtTokens.Create(o, crypto, s.users[k], now)))
    ensures EmailsDistinct(s.users) ==>
      forall k :: k in s.users && s.users[k].email == email ==>
        (r.Ok? <==> h.verify(password, s.users[k].passwordHash))
  {
    var user := FindByEmail(s.users, email);
    if user.None? || !h.verify(password, user.value.passwordHash) {
      r := Unauthorized(Some(InvalidCredentials));
    } else {
      r := Ok(LoginBody(crypto.encode(JwtTokens.Create(o, crypto, user.value, now))));
    }
  }

  /** GET api/auth/me for an authenticated caller: 401 when the principal
      has no usable email claim, 404 when no user holds it, else the
      user's profile. */
  method Me(s: Registry, principal: JwtTokens.Payload) returns (r: Response<Profile>)
    ensures IsNullOrWhiteSpace(principal.email) ==> r == Unauthorized(None)
    ensures !IsNullOrWhiteSpace(principal.email) && !EmailTaken(s.users, principal.email.value) ==> r == NotFound
    ensures !IsNullOrWhiteSpace(principal.email) && EmailTaken(s.users, principal.email.value) ==> r.Ok?
    ensures r.Ok? ==> exists k :: k in s.users && s.users[k].email == principal.email.value
                        && r.value == ProfileOf(s.users[k])
  {
    if IsNullOrWhiteSpace(principal.email) {
      r := Unauthorized(None);
    } else {
      var user := FindByEmail(s.users, principal.email.value);
      if user.None? {
        r := NotFound;
      } else {
        r := Ok(ProfileOf(user.value));
      }
    }
  }

  /** GET api/auth/me behind `[Authorize]`: without an accepted token the
      action does not run and the answer is a bare 401. */
  method MeRequest(s: Registry, authorization: Option<string>, query: Option<string>,
                   p: JwtTokens.ValidationParameters, crypto: JwtTokens.Crypto, now: Time)
    returns (r: Response<Profile>)
    ensures Gate.Authenticate(authorization, query, p, crypto, now).None? ==> r == Unauthorized(None)
    ensures
      var principal := Gate.Authenticate(authorization, query, p, crypto, now);
      principal.Some? && IsNullOrWhiteSpace(principal.value.email) ==> r == Unauthorized(None)
    ensures
      var principal := Gate.Authenticate(authorization, query, p, crypto, now);
      (principal.Some? && !IsNullOrWhiteSpace(principal.value.email)
       && !EmailTaken(s.users, principal.value.email.value)) ==> r == NotFound
    ensures r.Ok? ==>
      var principal := Gate.Authenticate(authorization, query, p, crypto, now);
      && principal.Some? && principal.value.email.Some?
      && exists k :: k in s.users && s.users[k].email == principal.value.email.value
                       && r.value == ProfileOf(s.users[k])
    ensures
      var principal := Gate.Authenticate(authorization, query, p, crypto, now);
      (principal.Some? && !IsNullOrWhiteSpace(principal.value.email)
       && EmailTaken(s.users, principal.value.email.value)) ==> r.Ok?
  {
    var principal := Gate.Authenticate(authorization, query, p, crypto, now);
    if principal.None? {
      r := Unauthorized(None);
    } else {
      r := Me(s, principal.value);
    }
  }
}

=== FILE: common.dfy ===
/** Shared vocabulary of the relief API model: identifiers, time, nullable
    values, the HTTP outcomes a controller action can produce, and the
    .NET string tests (`string.IsNullOrWhiteSpace`, `string.IsNullOrEmpty`,
    `string.Trim`) that the controllers and the token gate rely on. */
module Common {

  /** A `System.Guid`: a 128-bit value; `Guid.Empty` is 0. */
  type Guid = x: nat | x < 0x1_0000_0000_0000_0000_0000_0000_0000_0000

  /** A UTC instant, in whole seconds (the granularity of a JWT `exp`). */
  type Time = int

  /** A 32-bit signed integer, the width of a C# `int`. */
  type Int32 = x: int | -0x8000_0000 <= x < 0x8000_0000

  const SecondsPerMinute: int := 60

  /** A C# reference that may be null. */
  datatype Option<+T> = None | Some(value: T)

  /** The outcomes a controller action returns, one per ASP.NET result kind:
      201 `CreatedAtAction`, 200 `Ok(value)`, `Ok(null)` (which ASP.NET's
      default output formatters send as 204 No Content), 404, 400, 409 and
      401 (with or without a message body). */
  datatype Response<+T> =
    | Created(value: T)
    | Ok(value: T)
    | OkNull
    | NotFound
    | BadRequest(message: string)
    | Conflict(message: string)
    | Unauthorized(body: Option<string>)

  /** `char.IsWhiteSpace`: the Unicode space, line and paragraph separators
      together with U+0009..U+000D, U+0085 and U+00A0. */
  predicate IsWhiteSpaceChar(c: char)
  {
    || ('\U{9}' <= c <= '\U{D}')
    || c == ' ' || c == '\U{85}' || c == '\U{A0}' || c == '\U{1680}'
    || ('\U{2000}' <= c <= '\U{200A}')
    || c == '\U{2028}' || c == '\U{2029}' || c == '\U{202F}' || c == '\U{205F}'
    || c == '\U{3000}'
  }

  /** Every character of `s` is white space (true of ""). */
  predicate IsBlank(s: string)
  {
    forall i :: 0 <= i < |s| ==> IsWhiteSpaceChar(s[i])
  }

  /** `string.IsNullOrWhiteSpace`. */
  predicate IsNullOrWhiteSpace(s: Option<string>)
  {
    s.None? || IsBlank(s.value)
  }

  /** `string.IsNullOrEmpty`. */
  predicate IsNullOrEmpty(s: Option<string>)
  {
    s.None? || s.value == ""
  }

  /** `string.TrimStart()`: drops the leading white space. */
  function TrimStart(s: string): (r: string)
    ensures |r| <= |s| && r == s[|s| - |r|..]
    ensures r == [] || !IsWhiteSpaceChar(r[0])
    ensures IsBlank(s[..|s| - |r|])
  {
    if s != [] && IsWhiteSpaceChar(s[0]) then
      var r := TrimStart(s[1..]);
      assert s[1..][..|s| - 1 - |r|] == s[1..|s| - |r|];
      r
    else s
  }

  /** `string.TrimEnd()`: drops the trailing white space. */
  function TrimEnd(s: string): (r: string)
    ensures |r| <= |s| && r == s[..|r|]
    ensures r == [] || !IsWhiteSpaceChar(r[|r| - 1])
    ensures IsBlank(s[|r|..])
  {
    if s != [] && IsWhiteSpaceChar(s[|s| - 1]) then
      var r := TrimEnd(s[..|s| - 1]);
      assert s[..|s| - 1][|r|..] == s[|r|..|s| - 1];
      r
    else s
  }

  /** `string.Trim()`. */
  function Trim(s: string): string
  {
    TrimEnd(TrimStart(s))
  }

  /** A trimmed string is empty exactly when the original was blank. */
  lemma TrimEmptyIffBlank(s: string)
    ensures Trim(s) == "" <==> IsBlank(s)
  {
    var t := TrimStart(s);
    assert s == s[..|s| - |t|] + t;
  }

  /** `map[k := v]` when `k` was absent: one key more, nothing else moved. */
  ghost predicate AddsOne<K, V>(m: map<K, V>, m': map<K, V>, k: K)
  {
    && k !in m
    && m'.Keys == m.Keys + {k}
    && forall j :: j in m ==> m'[j] == m[j]
  }

  /** `m'` agrees with `m` on every key but `k`, and has the same keys. */
  ghost predicate ChangesOnly<K, V>(m: map<K, V>, m': map<K, V>, k: K)
  {
    && m'.Keys == m.Keys
    && forall j :: j in m && j != k ==> m'[j] == m[j]
  }
}

=== FILE: donations.dfy ===
/** `DonationsController`: creation, a lookup that answers a miss with
    `Ok(null)` rather than 404, the status-filtered newest-first listing and the free-form
    status overwrite. */
module Donations {
  import opened Common
  import opened Models
  import Listing

  /** The `Where` clause of `List`: exact status, unless the filter is unset. */
  function Filter(status: Option<string>): Donation -> bool
  {
    (d: Donation) => Listing.Matches(status, d.status)
  }

  function CreatedAt(d: Donation): Time { d.createdAt }

  /** POST api/donations. */
  function Create(s: Registry, d: Donation, now: Time, freshId: Guid): (r: (Registry, Response<Donation>))
    requires freshId !in s.donations
    ensures r.1.Created?
    ensures AddsOne(s.donations, r.0.donations, freshId)
    ensures r.0 == s.(donations := r.0.donations)
    ensures r.1.value == r.0.donations[freshId]
    ensures r.1.value.donationId == freshId && r.1.value.createdAt == now
    ensures r.1.value.(donationId := d.donationId, createdAt := d.createdAt) == d
  {
    var stored := d.(donationId := freshId, createdAt := now);
    (s.(donations := s.donations[freshId := stored]), Created(stored))
  }

  /** GET api/donations/{id}: `Ok(null)` on a miss, never a 404. */
  function Get(s: Registry, id: Guid): (r: Response<Donation>)
    ensures r.Ok? || r.OkNull?
    ensures r.OkNull? <==> id !in s.donations
    ensures id in s.donations ==> r == Ok(s.donations[id])
  {
    if id in s.donations then Ok(s.donations[id]) else OkNull
  }

  /** GET api/donations?status=: the matching donations, newest first. */
  method List(s: Registry, status: Option<string>) returns (r: seq<Donation>)
    ensures Listing.Lists(s.donations, Filter(status), r)
    ensures Listing.NewestFirst(CreatedAt, r)
    ensures forall i :: 0 <= i < |r| ==> r[i] in s.donations.Values
    ensures forall i :: 0 <= i < |r| && !IsNullOrWhiteSpace(status) ==> r[i].status == status.value
    ensures forall k ::
      k in s.donations && (IsNullOrWhiteSpace(status) || s.donations[k].status == status.value)
      ==> s.donations[k] in r
  {
    r := Listing.SelectNewestFirst(s.donations, Filter(status), CreatedAt);
    forall i | 0 <= i < |r|
      ensures r[i] in s.donations.Values && Filter(status)(r[i])
    {
      Listing.ListsSound(s.donations, Filter(status), r, i);
    }
    forall k | k in s.donations && Filter(status)(s.donations[k])
      ensures s.donations[k] in r
    {
      Listing.ListsComplete(s.donations, Filter(status), r, k);
    }
  }

  /** PUT api/donations/{id}/status: overwrites the status verbatim. */
  function UpdateStatus(s: Registry, id: Guid, status: string): (r: (Registry, Response<Donation>))
    ensures id !in s.donations ==> r == (s, NotFound)
    ensures id in s.donations ==>
      && r.0 == s.(donations := r.0.donations)
      && ChangesOnly(s.donations, r.0.donations, id)
      && r.1 == Ok(r.0.donations[id])
      && r.0.donations[id].status == status
      && r.0.donations[id].(status := s.donations[id].status) == s.donations[id]
  {
    if id !in s.donations then (s, NotFound)
    else
      var d := s.donations[id].(status := status);
      (s.(donations := s.donations[id := d]), Ok(d))
  }

  /** Reading back a donation just pledged returns what creation returned;
      every other id reads as before. */
  lemma GetAfterCreate(s: Registry, d: Donation, now: Time, freshId: Guid, other: Guid)
    requires freshId !in s.donations
    ensures Get(Create(s, d, now, freshId).0, freshId) == Ok(Create(s, d, now, freshId).1.value)
    ensures other != freshId ==> Get(Create(s, d, now, freshId).0, other) == Get(s, other)
  {
  }

  /** Reading a donation after a status update returns the updated record
      the update answered with, or `Ok(null)` when there was none to
      update; every other id reads as before. */
  lemma GetAfterUpdateStatus(s: Registry, id: Guid, status: string, other: Guid)
    ensures id in s.donations ==> Get(UpdateStatus(s, id, status).0, id) == UpdateStatus(s, id, status).1
    ensures id !in s.donations ==> Get(UpdateStatus(s, id, status).0, id) == OkNull
    ensures other != id ==> Get(UpdateStatus(s, id, status).0, other) == Get(s, other)
  {
  }

  /** Setting the same status twice is the same as setting it once. */
  lemma UpdateStatusIdempotent(s: Registry, id: Guid, status: string)
    ensures UpdateStatus(UpdateStatus(s, id, status).0, id, status) == UpdateStatus(s, id, status)
  {
    if id in s.donations {
      var s1 := UpdateStatus(s, id, status).0;
      assert s1.donations[id := s1.donations[id]] == s1.donations;
    }
  }

  /** After a stored donation moves to `next`, every listing filtered by
      `next` shows it and no listing filtered by a different status `prev`
      carries its id. */
  lemma StatusMoveReflectedInListings(s: Registry, id: Guid, prev: string, next: string,
                                      underNext: seq<Donation>, underPrev: seq<Donation>)
    requires Valid(s) && id in s.donations
    requires !IsBlank(next) && !IsBlank(prev) && prev != next
    requires Listing.Lists(UpdateStatus(s, id, next).0.donations, Filter(Some(next)), underNext)
    requires Listing.Lists(UpdateStatus(s, id, next).0.donations, Filter(Some(prev)), underPrev)
    ensures UpdateStatus(s, id, next).0.donations[id] in underNext
    ensures forall i :: 0 <= i < |underPrev| ==> underPrev[i].donationId != id
  {
    var m := UpdateStatus(s, id, next).0.donations;
    Listing.ListsComplete(m, Filter(Some(next)), underNext, id);
    Listing.ListsIdsOnce(m, Filter(Some(prev)), (d: Donation) => d.donationId, underPrev);
  }

  /** Creation and status updates keep the store invariant. */
  lemma CreatePreservesValid(s: Registry, d: Donation, now: Time, freshId: Guid)
    requires Valid(s) && freshId !in s.donations
    ensures Valid(Create(s, d, now, freshId).0)
  {
  }

  lemma UpdateStatusPreservesValid(s: Registry, id: Guid, status: string)
    requires Valid(s)
    ensures Valid(UpdateStatus(s, id, status).0)
  {
  }
}

=== FILE: gate.dfy ===
/** The request gate: where a request's token comes from (the
    `Authorization: Bearer` header of section 2.1 of RFC 6750, or the
    `token` query parameter that `OnMessageReceived` in Program.cs reads)
    and whether the bearer scheme turns it into a principal. */
module Gate {
  import opened Common
  import opened JwtTokens

  /** `Request.Query["token"].ToString()`: the empty string when absent. */
  function QueryValue(query: Option<string>): string
  {
    if query.Some? then query.value else ""
  }

  /** The `OnMessageReceived` event of Program.cs. A token already on the
      context stays; otherwise a query value that is not blank becomes the
      token; a blank one changes nothing. */
  function OnMessageReceived(contextToken: Option<string>, query: Option<string>): (t: Option<string>)
    ensures !IsNullOrEmpty(contextToken) ==> t == contextToken
    ensures IsNullOrEmpty(contextToken) && !IsBlank(QueryValue(query)) ==> t == Some(QueryValue(query))
    ensures IsNullOrEmpty(contextToken) && IsBlank(QueryValue(query)) ==> t == contextToken
  {
    if IsNullOrEmpty(contextToken) then
      var q := QueryValue(query);
      if !IsNullOrWhiteSpace(Some(q)) then Some(q) else contextToken
    else contextToken
  }

  const BearerPrefix := "Bearer "

  /** ASCII upper-casing, which is all an ordinal case-insensitive
      comparison with "Bearer " needs. */
  function AsciiUpper(c: char): char
  {
    if 'a' <= c <= 'z' then (c as int - 32) as char else c
  }

  /** `StartsWith("Bearer ", StringComparison.OrdinalIgnoreCase)`. */
  predicate HasBearerPrefix(h: string)
  {
    |h| >= |BearerPrefix| && forall i :: 0 <= i < |BearerPrefix| ==> AsciiUpper(h[i]) == AsciiUpper(BearerPrefix[i])
  }

  /** The bearer handler's reading of the Authorization header: the trimmed
      text after a case-insensitive "Bearer " prefix, when that text is not
      blank. */
  function BearerToken(authorization: Option<string>): (t: Option<string>)
    ensures t.Some? <==>
      && authorization.Some? && HasBearerPrefix(authorization.value)
      && !IsBlank(authorization.value[|BearerPrefix|..])
    ensures t.Some? ==> t.value == Trim(authorization.value[|BearerPrefix|..]) && t.value != ""
  {
    var h := if authorization.Some? then authorization.value else "";
    if h != "" && HasBearerPrefix(h) then
      var t := Trim(h[|BearerPrefix|..]);
      TrimEmptyIffBlank(h[|BearerPrefix|..]);
      if t == "" then None else Some(t)
    else None
  }

  /** The token the ASP.NET bearer handler ends up with, as written: it
      raises `OnMessageReceived` before it has looked at the header, so the
      context holds no token yet and the header is read only when the event
      set none. */
  function HandlerToken(authorization: Option<string>, query: Option<string>): (t: Option<string>)
    ensures !IsBlank(QueryValue(query)) ==> t == Some(QueryValue(query))
    ensures IsBlank(QueryValue(query)) ==> t == BearerToken(authorization)
  {
    var fromEvent := OnMessageReceived(None, query);
    if IsNullOrEmpty(fromEvent) then BearerToken(authorization) else fromEvent
  }

  /** The intended order: the header token first (the context holds it when
      the event runs), the `token` query parameter only as the fallback. */
  function PresentedToken(authorization: Option<string>, query: Option<string>): (t: Option<string>)
    ensures BearerToken(authorization).Some? ==> t == BearerToken(authorization)
    ensures BearerToken(authorization).None? && !IsBlank(QueryValue(query)) ==> t == Some(QueryValue(query))
    ensures BearerToken(authorization).None? && IsBlank(QueryValue(query)) ==> t.None?
  {
    OnMessageReceived(BearerToken(authorization), query)
  }

  /** Without a header token the written and the intended order agree. */
  lemma OrdersAgreeWithoutHeader(authorization: Option<string>, query: Option<string>)
    requires BearerToken(authorization).None?
    ensures HandlerToken(authorization, query) == PresentedToken(authorization, query)
  {
  }

  /** The bearer scheme's verdict on the token it picked: the claims of a
      token that decodes and that the validation parameters accept, and no
      principal otherwise. Every failure looks the same. */
  function Principal(token: Option<string>, p: ValidationParameters, crypto: Crypto, now: Time): (principal: Option<Payload>)
    ensures principal.Some? ==>
      && token.Some? && crypto.decode(token.value).Some?
      && Accepts(p, crypto.sign, now, crypto.decode(token.value).value)
      && principal.value == crypto.decode(token.value).value.payload
    ensures token.Some? && crypto.decode(token.value).Some?
            && Accepts(p, crypto.sign, now, crypto.decode(token.value).value) ==>
      principal == Some(crypto.decode(token.value).value.payload)
  {
    match token
    case None => None
    case Some(text) =>
      match crypto.decode(text)
      case None => None
      case Some(t) => if Accepts(p, crypto.sign, now, t) then Some(t.payload) else None
  }

  /** The principal the host establishes for a request, as written: the
      token is picked in the handler's order, so a non-blank `token` query
      value is judged even when a bearer header is present. */
  function Authenticate(authorization: Option<string>, query: Option<string>,
                        p: ValidationParameters, crypto: Crypto, now: Time): (principal: Option<Payload>)
    ensures principal.Some? ==>
      && HandlerToken(authorization, query).Some?
      && crypto.decode(HandlerToken(authorization, query).value).Some?
      && var t := crypto.decode(HandlerToken(authorization, query).value).value;
         Accepts(p, crypto.sign, now, t) && principal.value == t.payload
    ensures
      var token := HandlerToken(authorization, query);
      token.Some? && crypto.decode(token.value).Some?
      && Accepts(p, crypto.sign, now, crypto.decode(token.value).value) ==>
        principal == Some(crypto.decode(token.value).value.payload)
  {
    Principal(HandlerToken(authorization, query), p, crypto, now)
  }

  /** The principal in the intended, header-first order. */
  function AuthenticateIntended(authorization: Option<string>, query: Option<string>,
                                p: ValidationParameters, crypto: Crypto, now: Time): (principal: Option<Payload>)
    ensures principal.Some? ==>
      && PresentedToken(authorization, query).Some?
      && crypto.decode(PresentedToken(authorization, query).value).Some?
      && var t := crypto.decode(PresentedToken(authorization, query).value).value;
         Accepts(p, crypto.sign, now, t) && principal.value == t.payload
    ensures
      var token := PresentedToken(authorization, query);
      token.Some? && crypto.decode(token.value).Some?
      && Accepts(p, crypto.sign, now, crypto.decode(token.value).value) ==>
        principal == Some(crypto.decode(token.value).value.payload)
  {
    Principal(PresentedToken(authorization, query), p, crypto, now)
  }

  /** Without a header token both orders establish the same principal. */
  lemma AuthenticationsAgreeWithoutHeader(authorization: Option<string>, query: Option<string>,
                                          p: ValidationParameters, crypto: Crypto, now: Time)
    requires BearerToken(authorization).None?
    ensures Authenticate(authorization, query, p, crypto, now)
         == AuthenticateIntended(authorization, query, p, crypto, now)
  {
    OrdersAgreeWithoutHeader(authorization, query);
  }

  /** No header token and no usable query token: no principal, in either
      order. */
  lemma NoTokenNoPrincipal(authorization: Option<string>, query: Option<string>,
                           p: ValidationParameters, crypto: Crypto, now: Time)
    requires BearerToken(authorization).None? && IsBlank(QueryValue(query))
    ensures Authenticate(authorization, query, p, crypto, now).None?
    ensures AuthenticateIntended(authorization, query, p, crypto, now).None?
  {
  }

  /** Trimming a string without white space gives it back. */
  lemma TrimCompact(s: string)
    requires IsCompact(s)
    ensures Trim(s) == s
  {
    assert TrimStart(s) == s;
  }

  /** A compact token is not blank. */
  lemma CompactNotBlank(s: string)
    requires IsCompact(s)
    ensures !IsBlank(s)
  {
    assert !IsWhiteSpaceChar(s[0]);
  }

  /** "Bearer " followed by a compact token yields that token. */
  lemma HeaderBearerToken(text: string)
    requires IsCompact(text)
    ensures BearerToken(Some(BearerPrefix + text)) == Some(text)
  {
    var h := BearerPrefix + text;
    assert h[..|BearerPrefix|] == BearerPrefix;
    assert h[|BearerPrefix|..] == text;
    assert HasBearerPrefix(h) by {
      forall i | 0 <= i < |BearerPrefix|
        ensures AsciiUpper(h[i]) == AsciiUpper(BearerPrefix[i])
      {
        assert h[i] == BearerPrefix[i];
      }
    }
    CompactNotBlank(text);
    TrimCompact(text);
    assert BearerToken(Some(h)).Some?;
  }

  /** A request carrying "Bearer " + `a` in its header and `token=b` in its
      query, for two different compact tokens, is judged on `b` as written
      but on `a` in the intended order (for instance `a` = "A", `b` = "B"). */
  lemma QueryDisplacesHeaderExample(a: string, b: string)
    requires IsCompact(a) && IsCompact(b) && a != b
    ensures BearerToken(Some(BearerPrefix + a)) == Some(a)
    ensures HandlerToken(Some(BearerPrefix + a), Some(b)) == Some(b)
    ensures PresentedToken(Some(BearerPrefix + a), Some(b)) == Some(a)
  {
    HeaderBearerToken(a);
    CompactNotBlank(b);
  }

  /** As written, a token the service issued authenticates its user until
      it expires when it comes as `?token=`, whatever the header says, and
      when it comes as `Authorization: Bearer` with no usable query token. */
  lemma IssuedTokenAuthenticates(section: JwtSection, crypto: Crypto, user: Models.User,
                                 issuedAt: Time, now: Time,
                                 authorization: Option<string>, query: Option<string>)
    requires WellFormed(crypto)
    requires now <= issuedAt + OptionsFrom(section).expiryMinutes * SecondsPerMinute
    requires IsBlank(QueryValue(query))
    ensures
      var t := Create(OptionsFrom(section), crypto, user, issuedAt);
      && Authenticate(authorization, Some(crypto.encode(t)), ValidationFrom(section), crypto, now) == Some(t.payload)
      && Authenticate(Some(BearerPrefix + crypto.encode(t)), query, ValidationFrom(section), crypto, now) == Some(t.payload)
  {
    var t := Create(OptionsFrom(section), crypto, user, issuedAt);
    var text := crypto.encode(t);
    assert IsCompact(text) && crypto.decode(text) == Some(t);
    IssuedTokenAccepted(section, crypto, user, issuedAt, now);
    CompactNotBlank(text);
    HeaderBearerToken(text);
  }

  /** In the intended order the issued token authenticates as
      `Authorization: Bearer` whatever the query holds, and as `?token=`
      when no header token is sent. */
  lemma IssuedTokenAuthenticatesIntended(section: JwtSection, crypto: Crypto, user: Models.User,
                                         issuedAt: Time, now: Time,
                                         authorization: Option<string>, query: Option<string>)
    requires WellFormed(crypto)
    requires now <= issuedAt + OptionsFrom(section).expiryMinutes * SecondsPerMinute
    requires BearerToken(authorization).None?
    ensures
      var t := Create(OptionsFrom(section), crypto, user, issuedAt);
      && AuthenticateIntended(authorization, Some(crypto.encode(t)), ValidationFrom(section), crypto, now) == Some(t.payload)
      && AuthenticateIntended(Some(BearerPrefix + crypto.encode(t)), query, ValidationFrom(section), crypto, now) == Some(t.payload)
  {
    var t := Create(OptionsFrom(section), crypto, user, issuedAt);
    var text := crypto.encode(t);
    assert IsCompact(text) && crypto.decode(text) == Some(t);
    IssuedTokenAccepted(section, crypto, user, issuedAt, now);
    CompactNotBlank(text);
    HeaderBearerToken(text);
  }

  /** The discrepancy at the level of principals: a valid issued token in
      the header next to a non-blank query value that does not decode is
      refused as written, and accepted in the intended order. */
  lemma HeaderTokenDisplaced(section: JwtSection, crypto: Crypto, user: Models.User,
                             issuedAt: Time, now: Time, junk: string)
    requires WellFormed(crypto)
    requires now <= issuedAt + OptionsFrom(section).expiryMinutes * SecondsPerMinute
    requires !IsBlank(junk) && crypto.decode(junk).None?
    ensures
      var t := Create(OptionsFrom(section), crypto, user, issuedAt);
      var authorization := Some(BearerPrefix + crypto.encode(t));
      && Authenticate(authorization, Some(junk), ValidationFrom(section), crypto, now).None?
      && AuthenticateIntended(authorization, Some(junk), ValidationFrom(section), crypto, now) == Some(t.payload)
  {
    var t := Create(OptionsFrom(section), crypto, user, issuedAt);
    var text := crypto.encode(t);
    assert IsCompact(text) && crypto.decode(text) == Some(t);
    IssuedTokenAccepted(section, crypto, user, issuedAt, now);
    HeaderBearerToken(text);
  }
}

=== FILE: incidents.dfy ===
/** `IncidentsController`: creation, the filtered newest-first listing,
    lookup, the free-form status overwrite and the CSV export's selection. */
module Incidents {
  import opened Common
  import opened Models
  import Listing

  /** The `Where` clauses of `List`: status first, then severity. */
  function Filter(status: Option<string>, severity: Option<string>): Incident -> bool
  {
    (i: Incident) => Listing.Matches(status, i.status) && Listing.Matches(severity, i.severity)
  }

  function CreatedAt(i: Incident): Time { i.createdAt }

  /** POST api/incidents: stores the submitted incident under a fresh id,
      stamped with the current time. */
  function Create(s: Registry, inc: Incident, now: Time, freshId: Guid): (r: (Registry, Response<Incident>))
    requires freshId !in s.incidents
    ensures r.1.Created?
    ensures AddsOne(s.incidents, r.0.incidents, freshId)
    ensures r.0 == s.(incidents := r.0.incidents)
    ensures r.1.value == r.0.incidents[freshId]
    ensures r.1.value.incidentId == freshId && r.1.value.createdAt == now
    ensures r.1.value.(incidentId := inc.incidentId, createdAt := inc.createdAt) == inc
  {
    var stored := inc.(incidentId := freshId, createdAt := now);
    (s.(incidents := s.incidents[freshId := stored]), Created(stored))
  }

  /** GET api/incidents?status=&severity=: the matching incidents, newest first. */
  method List(s: Registry, status: Option<string>, severity: Option<string>) returns (r: seq<Incident>)
    ensures Listing.Lists(s.incidents, Filter(status, severity), r)
    ensures Listing.NewestFirst(CreatedAt, r)
    ensures forall i :: 0 <= i < |r| ==> r[i] in s.incidents.Values
    ensures forall i :: 0 <= i < |r| && !IsNullOrWhiteSpace(status) ==> r[i].status == status.value
    ensures forall i :: 0 <= i < |r| && !IsNullOrWhiteSpace(severity) ==> r[i].severity == severity.value
    ensures forall k ::
      k in s.incidents && Listing.Matches(status, s.incidents[k].status)
      && Listing.Matches(severity, s.incidents[k].severity)
      ==> s.incidents[k] in r
  {
    r := Listing.SelectNewestFirst(s.incidents, Filter(status, severity), CreatedAt);
    forall i | 0 <= i < |r|
      ensures r[i] in s.incidents.Values && Filter(status, severity)(r[i])
    {
      Listing.ListsSound(s.incidents, Filter(status, severity), r, i);
    }
    forall k | k in s.incidents && Filter(status, severity)(s.incidents[k])
      ensures s.incidents[k] in r
    {
      Listing.ListsComplete(s.incidents, Filter(status, severity), r, k);
    }
  }

  /** GET api/incidents/{id}. */
  function Get(s: Registry, id: Guid): (r: Response<Incident>)
    ensures r.NotFound? <==> id !in s.incidents
    ensures id in s.incidents ==> r == Ok(s.incidents[id])
  {
    if id in s.incidents then Ok(s.incidents[id]) else NotFound
  }

  /** PUT api/incidents/{id}/status: overwrites the status with the given
      value, whatever it is; there is no transition table. */
  function UpdateStatus(s: Registry, id: Guid, status: string): (r: (Registry, Response<Incident>))
    ensures id !in s.incidents ==> r == (s, NotFound)
    ensures id in s.incidents ==>
      && r.0 == s.(incidents := r.0.incidents)
      && ChangesOnly(s.incidents, r.0.incidents, id)
      && r.1 == Ok(r.0.incidents[id])
      && r.0.incidents[id].status == status
      && r.0.incidents[id].(status := s.incidents[id].status) == s.incidents[id]
  {
    if id !in s.incidents then (s, NotFound)
    else
      var inc := s.incidents[id].(status := status);
      (s.(incidents := s.incidents[id := inc]), Ok(inc))
  }

  /** Reading back an incident just reported returns what creation
      returned; every other id reads as before. */
  lemma GetAfterCreate(s: Registry, inc: Incident, now: Time, freshId: Guid, other: Guid)
    requires freshId !in s.incidents
    ensures Get(Create(s, inc, now, freshId).0, freshId) == Ok(Create(s, inc, now, freshId).1.value)
    ensures other != freshId ==> Get(Create(s, inc, now, freshId).0, other) == Get(s, other)
  {
  }

  /** Reading an incident after a status update gives exactly the update's
      own answer (the updated record, or 404 for both); every other id
      reads as before. */
  lemma GetAfterUpdateStatus(s: Registry, id: Guid, status: string, other: Guid)
    ensures Get(UpdateStatus(s, id, status).0, id) == UpdateStatus(s, id, status).1
    ensures other != id ==> Get(UpdateStatus(s, id, status).0, other) == Get(s, other)
  {
  }

  /** Setting the same status twice is the same as setting it once. */
  lemma UpdateStatusIdempotent(s: Registry, id: Guid, status: string)
    ensures UpdateStatus(UpdateStatus(s, id, status).0, id, status) == UpdateStatus(s, id, status)
  {
    if id in s.incidents {
      var s1 := UpdateStatus(s, id, status).0;
      assert s1.incidents[id := s1.incidents[id]] == s1.incidents;
    }
  }

  /** Any status value may follow any other: the update always succeeds on
      a stored incident, including a move back to "Open". */
  lemma AnyTransitionAllowed(s: Registry, id: Guid, status: string)
    requires id in s.incidents
    ensures UpdateStatus(s, id, status).1.Ok?
    ensures UpdateStatus(s, id, status).1.value.status == status
  {
  }

  const CsvHeader := "incidentId,type,severity,status,latitude,longitude,needs,createdAt"

  /** A line of the exported CSV file: the fixed header, or the cells of one
      incident. */
  datatype CsvLine = HeaderLine(text: string) | IncidentLine(incident: Incident)

  /** GET api/incidents/export?status=: the header line, then one line per
      incident matching the status filter (severity is never consulted),
      newest first. */
  method ExportCsv(s: Registry, status: Option<string>) returns (lines: seq<CsvLine>)
    ensures |lines| >= 1 && lines[0] == HeaderLine(CsvHeader)
    ensures |lines| == 1 + |Listing.Selected(s.incidents, Filter(status, None))|
    ensures forall i :: 1 <= i < |lines| ==> lines[i].IncidentLine?
    ensures Listing.Lists(s.incidents, Filter(status, None), Rows(lines[1..]))
    ensures Listing.NewestFirst(CreatedAt, Rows(lines[1..]))
  {
    var list := Listing.SelectNewestFirst(s.incidents, Filter(status, None), CreatedAt);
    var rows := IncidentLines(list);
    lines := [HeaderLine(CsvHeader)] + rows;
    assert lines[1..] == rows;
    RowsOfIncidentLines(list);
  }

  /** One incident line per incident, in order. */
  function IncidentLines(list: seq<Incident>): seq<CsvLine>
  {
    seq(|list|, i requires 0 <= i < |list| => IncidentLine(list[i]))
  }

  /** Reading the incidents back off their lines gives the list. */
  lemma RowsOfIncidentLines(list: seq<Incident>)
    ensures Rows(IncidentLines(list)) == list
  {
  }

  /** The incidents behind a run of incident lines. */
  function Rows(lines: seq<CsvLine>): seq<Incident>
    requires forall i :: 0 <= i < |lines| ==> lines[i].IncidentLine?
  {
    seq(|lines|, i requires 0 <= i < |lines| => lines[i].incident)
  }

  /** A blank status filter on the export is no filter at all. */
  lemma BlankFilterSelectsAll(s: Registry, status: Option<string>)
    requires IsNullOrWhiteSpace(status)
    ensures Listing.Selected(s.incidents, Filter(status, None)) == s.incidents.Keys
  {
  }

  /** Creation and status updates keep the store invariant. */
  lemma CreatePreservesValid(s: Registry, inc: Incident, now: Time, freshId: Guid)
    requires Valid(s) && freshId !in s.incidents
    ensures Valid(Create(s, inc, now, freshId).0)
  {
  }

  lemma UpdateStatusPreservesValid(s: Registry, id: Guid, status: string)
    requires Valid(s)
    ensures Valid(UpdateStatus(s, id, status).0)
  {
  }
}

=== FILE: jwt.dfy ===
/** `JwtTokenService` and the bearer validation parameters of `Program.cs`.
    A token is kept as its claim record plus a signature; HMAC-SHA256 and
    the compact wire encoding of RFC 7519 are opaque functions handed in as
    a `Crypto` value. */
module JwtTokens {
  import opened Common
  import opened Models

  /** The claims a token carries: `sub`, `email`, `name` and the role claim,
      the issuer and audience, and `exp` (section 4.1.4 of RFC 7519). The
      email is optional because a token made elsewhere with the same key
      need not carry one. */
  datatype Payload = Payload(
    sub: Guid,
    email: Option<string>,
    name: string,
    role: string,
    issuer: string,
    audience: string,
    expires: Time)

  /** A signed token: its claims and the signature over them. */
  datatype Jwt = Jwt(payload: Payload, signature: string)

  /** The primitives the model does not open: `sign(key, claims)` is the
      HMAC-SHA256 signature under a key, `encode` and `decode` the compact
      serialisation. */
  datatype Crypto = Crypto(
    sign: (string, Payload) -> string,
    encode: Jwt -> string,
    decode: string -> Option<Jwt>)

  /** A compact JWT is non-empty and free of white space (base64url parts
      joined by dots). */
  predicate IsCompact(s: string)
  {
    s != "" && forall i :: 0 <= i < |s| ==> !IsWhiteSpaceChar(s[i])
  }

  /** What the serialisation is assumed to promise: compact output that
      decodes back to the token. */
  ghost predicate WellFormed(c: Crypto)
  {
    forall t :: IsCompact(c.encode(t)) && c.decode(c.encode(t)) == Some(t)
  }

  /** The "Jwt" configuration section as the host reads it. */
  datatype JwtSection = JwtSection(
    key: string,
    issuer: string,
    audience: string,
    expiryMinutes: Option<Int32>)

  /** `JwtOptions`, bound from the "Jwt" section. */
  datatype JwtOptions = JwtOptions(
    key: string,
    issuer: string,
    audience: string,
    expiryMinutes: Int32)

  const DefaultExpiryMinutes: Int32 := 120

  /** Binding the section onto a fresh `JwtOptions`: a missing
      `ExpiryMinutes` keeps its initialiser. */
  function OptionsFrom(section: JwtSection): (o: JwtOptions)
    ensures o.key == section.key && o.issuer == section.issuer && o.audience == section.audience
    ensures section.expiryMinutes.None? ==> o.expiryMinutes == DefaultExpiryMinutes
    ensures section.expiryMinutes.Some? ==> o.expiryMinutes == section.expiryMinutes.value
  {
    var minutes := match section.expiryMinutes
      case Some(m) => m
      case None => DefaultExpiryMinutes;
    JwtOptions(section.key, section.issuer, section.audience, minutes)
  }

  /** `JwtTokenService.Create`: the user's id, email, name and role as
      claims, the configured issuer and audience, an expiry `expiryMinutes`
      after `now`, signed with the configured key. It reads no store. */
  function Create(o: JwtOptions, crypto: Crypto, user: User, now: Time): (t: Jwt)
    ensures t.payload.sub == user.userId
    ensures t.payload.email == Some(user.email)
    ensures t.payload.name == user.fullName
    ensures t.payload.role == user.role
    ensures t.payload.issuer == o.issuer && t.payload.audience == o.audience
    ensures t.payload.expires - now == o.expiryMinutes * SecondsPerMinute
    ensures t.signature == crypto.sign(o.key, t.payload)
  {
    var p := Payload(user.userId, Some(user.email), user.fullName, user.role,
                     o.issuer, o.audience, now + o.expiryMinutes * SecondsPerMinute);
    Jwt(p, crypto.sign(o.key, p))
  }

  /** `TokenValidationParameters` as the bearer scheme is configured. */
  datatype ValidationParameters = ValidationParameters(
    validateIssuer: bool,
    validateAudience: bool,
    validateIssuerSigningKey: bool,
    validIssuer: string,
    validAudience: string,
    signingKey: string,
    clockSkew: int)

  /** Program.cs: issuer and audience checks off, key check on, no clock
      skew, the key being the same "Jwt:Key" the token service signs with. */
  function ValidationFrom(section: JwtSection): (p: ValidationParameters)
    ensures !p.validateIssuer && !p.validateAudience && p.validateIssuerSigningKey
    ensures p.clockSkew == 0
    ensures p.signingKey == OptionsFrom(section).key
  {
    ValidationParameters(false, false, true, section.issuer, section.audience, section.key, 0)
  }

  /** The bearer handler's verdict on a decoded token: the signature must be
      the one the signing key gives its claims, issuer and audience are
      compared only when switched on, and the token is expired once `exp`
      lies before `now` less the skew. */
  predicate Accepts(p: ValidationParameters, sign: (string, Payload) -> string, now: Time, t: Jwt)
  {
    && t.signature == sign(p.signingKey, t.payload)
    && (p.validateIssuer ==> t.payload.issuer == p.validIssuer)
    && (p.validateAudience ==> t.payload.audience == p.validAudience)
    && now - p.clockSkew <= t.payload.expires
  }

  /** Without an `ExpiryMinutes` setting a token lives 120 minutes. */
  lemma DefaultLifetime(section: JwtSection, crypto: Crypto, user: User, now: Time)
    requires section.expiryMinutes.None?
    ensures Create(OptionsFrom(section), crypto, user, now).payload.expires == now + 120 * 60
  {
  }

  /** A positive lifetime puts the expiry strictly after the issue time. */
  lemma ExpiryAfterIssue(o: JwtOptions, crypto: Crypto, user: User, now: Time)
    requires o.expiryMinutes > 0
    ensures Create(o, crypto, user, now).payload.expires > now
  {
  }

  /** A token the service issued is accepted by the host's validation at
      any moment from issue until its expiry, whatever issuer and audience
      are configured: both sides use the same key. */
  lemma IssuedTokenAccepted(section: JwtSection, crypto: Crypto, user: User, issuedAt: Time, now: Time)
    requires now <= issuedAt + OptionsFrom(section).expiryMinutes * SecondsPerMinute
    ensures Accepts(ValidationFrom(section), crypto.sign, now, Create(OptionsFrom(section), crypto, user, issuedAt))
  {
  }

  /** Zero skew: one second past `exp` the token is refused, however well
      it is signed. */
  lemma ExpiredRejected(section: JwtSection, sign: (string, Payload) -> string, t: Jwt, now: Time)
    requires t.payload.expires < now
    ensures !Accepts(ValidationFrom(section), sign, now, t)
  {
  }

  /** A token signed under another key is refused, given that the two keys
      sign its claims differently. */
  lemma ForeignKeyRejected(section: JwtSection, sign: (string, Payload) -> string, t: Jwt, now: Time, otherKey: string)
    requires t.signature == sign(otherKey, t.payload)
    requires sign(otherKey, t.payload) != sign(section.key, t.payload)
    ensures !Accepts(ValidationFrom(section), sign, now, t)
  {
  }

  /** Issuer and audience are never compared: a correctly signed, unexpired
      token naming any issuer and audience is accepted. */
  lemma ForeignIssuerAccepted(section: JwtSection, sign: (string, Payload) -> string, t: Jwt, now: Time)
    requires t.signature == sign(section.key, t.payload)
    requires now <= t.payload.expires
    requires t.payload.issuer != section.issuer && t.payload.audience != section.audience
    ensures Accepts(ValidationFrom(section), sign, now, t)
  {
  }

  /** The token depends on nothing but the claims-bearing fields of the
      user, the options, the clock and the key: the password digest and any
      stored state play no part. */
  lemma CreateIgnoresDigest(o: JwtOptions, crypto: Crypto, u: User, v: User, now: Time)
    requires u.(passwordHash := v.passwordHash) == v
    ensures Create(o, crypto, u, now) == Create(o, crypto, v, now)
  {
  }
}

=== FILE: listing.dfy ===
/** Predicate-filtered scans of a keyed collection, unordered (`Where`) and
    newest first (`Where(...).OrderByDescending(createdAt)`). A map has no
    enumeration order, so the order of the store's own enumeration, which
    decides ties under the stable `OrderByDescending`, is left open. */
module Listing {
  import opened Common

  /** An unset (null or blank) query filter admits every value; a set one
      demands exact equality. */
  predicate Matches(filter: Option<string>, value: string)
  {
    IsNullOrWhiteSpace(filter) || value == filter.value
  }

  /** No key occurs twice. */
  ghost predicate Distinct(ids: seq<Guid>)
  {
    forall i, j :: 0 <= i < j < |ids| ==> ids[i] != ids[j]
  }

  /** `ids` enumerates, once each, exactly the keys whose record `keep` selects. */
  ghost predicate Enumerates<R>(m: map<Guid, R>, keep: R -> bool, ids: seq<Guid>)
  {
    && Distinct(ids)
    && (forall k :: k in ids ==> k in m && keep(m[k]))
    && (forall k :: k in m && keep(m[k]) ==> k in ids)
  }

  /** The records stored under `ids`, in that order. */
  function Pick<R>(m: map<Guid, R>, ids: seq<Guid>): seq<R>
    requires forall k :: k in ids ==> k in m
  {
    seq(|ids|, i requires 0 <= i < |ids| => m[ids[i]])
  }

  /** `r` holds every selected record of `m` once, in some order, and nothing else. */
  ghost predicate Lists<R>(m: map<Guid, R>, keep: R -> bool, r: seq<R>)
  {
    exists ids :: Enumerates(m, keep, ids) && r == Pick(m, ids)
  }

  /** Non-increasing creation time along `r`. */
  ghost predicate NewestFirst<R>(createdAt: R -> Time, r: seq<R>)
  {
    forall i, j :: 0 <= i < j < |r| ==> createdAt(r[i]) >= createdAt(r[j])
  }

  /** Non-increasing creation time along the records stored under `ids`. */
  ghost predicate SortedIds<R>(m: map<Guid, R>, createdAt: R -> Time, ids: seq<Guid>)
  {
    && (forall k :: k in ids ==> k in m)
    && forall i, j :: 0 <= i < j < |ids| ==> createdAt(m[ids[i]]) >= createdAt(m[ids[j]])
  }

  /** The selected keys. */
  function Selected<R>(m: map<Guid, R>, keep: R -> bool): set<Guid>
  {
    set k | k in m && keep(m[k])
  }

  /** Inserts `k` after every key whose record is at least as new as `k`'s,
      keeping the sequence newest first and free of repeats. */
  function InsertByCreated<R>(m: map<Guid, R>, createdAt: R -> Time, ids: seq<Guid>, k: Guid): (r: seq<Guid>)
    requires k in m && k !in ids
    requires Distinct(ids) && SortedIds(m, createdAt, ids)
    ensures |r| == |ids| + 1
    ensures forall x :: x in r <==> x in ids || x == k
    ensures Distinct(r) && SortedIds(m, createdAt, r)
    decreases |ids|
  {
    if ids == [] then [k]
    else if createdAt(m[ids[0]]) >= createdAt(m[k]) then
      var rest := InsertByCreated(m, createdAt, ids[1..], k);
      forall i | 0 <= i < |rest|
        ensures createdAt(m[ids[0]]) >= createdAt(m[rest[i]]) && rest[i] != ids[0]
      {
        assert rest[i] in rest;
        if rest[i] != k {
          var j :| 0 <= j < |ids[1..]| && ids[1..][j] == rest[i];
          assert ids[j + 1] == rest[i];
        }
      }
      [ids[0]] + rest
    else
      [k] + ids
  }

  /** `Where(keep)` enumerated in the store's own (unspecified) order. */
  method Select<R>(m: map<Guid, R>, keep: R -> bool) returns (r: seq<R>)
    ensures Lists(m, keep, r)
    ensures |r| == |Selected(m, keep)|
  {
    var ids: seq<Guid> := [];
    var todo := Selected(m, keep);
    while todo != {}
      invariant todo <= Selected(m, keep)
      invariant Distinct(ids)
      invariant forall k :: k in ids <==> k in Selected(m, keep) && k !in todo
      invariant |ids| + |todo| == |Selected(m, keep)|
      decreases |todo|
    {
      var k :| k in todo;
      ids := ids + [k];
      todo := todo - {k};
    }
    r := Pick(m, ids);
  }

  /** `Where(keep).OrderByDescending(createdAt)`. */
  method SelectNewestFirst<R>(m: map<Guid, R>, keep: R -> bool, createdAt: R -> Time) returns (r: seq<R>)
    ensures Lists(m, keep, r)
    ensures NewestFirst(createdAt, r)
    ensures |r| == |Selected(m, keep)|
  {
    var ids: seq<Guid> := [];
    var todo := Selected(m, keep);
    while todo != {}
      invariant todo <= Selected(m, keep)
      invariant Distinct(ids) && SortedIds(m, createdAt, ids)
      invariant forall k :: k in ids <==> k in Selected(m, keep) && k !in todo
      invariant |ids| + |todo| == |Selected(m, keep)|
      decreases |todo|
    {
      var k :| k in todo;
      ids := InsertByCreated(m, createdAt, ids, k);
      todo := todo - {k};
    }
    r := Pick(m, ids);
  }

  /** Every listed record is stored and selected. */
  lemma ListsSound<R>(m: map<Guid, R>, keep: R -> bool, r: seq<R>, i: int)
    requires Lists(m, keep, r) && 0 <= i < |r|
    ensures r[i] in m.Values && keep(r[i])
  {
    var ids :| Enumerates(m, keep, ids) && r == Pick(m, ids);
    assert ids[i] in ids;
  }

  /** Every stored, selected record is listed. */
  lemma ListsComplete<R>(m: map<Guid, R>, keep: R -> bool, r: seq<R>, k: Guid)
    requires Lists(m, keep, r) && k in m && keep(m[k])
    ensures m[k] in r
  {
    var ids :| Enumerates(m, keep, ids) && r == Pick(m, ids);
    var i :| 0 <= i < |ids| && ids[i] == k;
    assert r[i] == m[k];
  }

  /** When records are stored under their own id, the listing carries each
      selected id exactly once and no other id. */
  lemma ListsIdsOnce<R>(m: map<Guid, R>, keep: R -> bool, id: R -> Guid, r: seq<R>)
    requires Lists(m, keep, r)
    requires forall k :: k in m ==> id(m[k]) == k
    ensures forall i, j :: 0 <= i < j < |r| ==> id(r[i]) != id(r[j])
    ensures forall i :: 0 <= i < |r| ==> id(r[i]) in m && keep(m[id(r[i])])
  {
    var ids :| Enumerates(m, keep, ids) && r == Pick(m, ids);
    assert forall i :: 0 <= i < |r| ==> id(r[i]) == ids[i] by {
      forall i | 0 <= i < |r|
        ensures id(r[i]) == ids[i]
      {
        assert ids[i] in ids;
      }
    }
    assert forall i :: 0 <= i < |r| ==> ids[i] in ids;
  }
}

=== FILE: models.dfy ===
/** The entities of the relief API (the classes under `Models`) and the in-memory store
    that holds them (`Data/ReliefDbContext.cs`): five keyed collections. */
module Models {
  import opened Common

  /** A registered account; `passwordHash` is a BCrypt digest. */
  datatype User = User(
    userId: Guid,
    fullName: string,
    email: string,
    passwordHash: string,
    role: string)

  /** A reported disaster incident. The coordinates are carried, never
      computed on. */
  datatype Incident = Incident(
    incidentId: Guid,
    incidentType: string,
    severity: string,
    latitude: real,
    longitude: real,
    needs: string,
    status: string,
    createdAt: Time)

  datatype Volunteer = Volunteer(
    volunteerId: Guid,
    fullName: string,
    email: string,
    phone: string,
    skills: string,
    homeBase: string,
    availability: string)

  datatype Donation = Donation(
    donationId: Guid,
    donorName: string,
    donorEmail: string,
    itemName: string,
    quantity: Int32,
    unit: string,
    location: string,
    status: string,
    createdAt: Time)

  /** A volunteer put to work on an incident. */
  datatype Assignment = Assignment(
    assignmentId: Guid,
    volunteerId: Guid,
    incidentId: Guid,
    taskDescription: string,
    status: string,
    assignedDate: Time,
    completedDate: Option<Time>)

  // Property initialisers of the model classes: the values a request body
  // that omits the field binds to.
  const DefaultRole := "User"
  const DefaultSeverity := "Low"
  const DefaultIncidentStatus := "Open"
  const DefaultUnit := "units"
  const DefaultDonationStatus := "Pledged"
  const DefaultAssignmentStatus := "Assigned"
  const DefaultAvailability := "Available"
  const CompletedStatus := "Completed"

  /** `new Incident { Type = t }`: the other fields at their initialisers. */
  function NewIncident(id: Guid, incidentType: string, now: Time): Incident
  {
    Incident(id, incidentType, DefaultSeverity, 0.0, 0.0, "", DefaultIncidentStatus, now)
  }

  /** `new Volunteer { FullName = n, Email = e }`. */
  function NewVolunteer(id: Guid, fullName: string, email: string): Volunteer
  {
    Volunteer(id, fullName, email, "", "", "", DefaultAvailability)
  }

  /** `new Donation { DonorName, DonorEmail, ItemName, Quantity }`. */
  function NewDonation(id: Guid, donorName: string, donorEmail: string, itemName: string,
                       quantity: Int32, now: Time): Donation
  {
    Donation(id, donorName, donorEmail, itemName, quantity, DefaultUnit, "", DefaultDonationStatus, now)
  }

  /** `new Assignment { VolunteerId, IncidentId, TaskDescription }`. */
  function NewAssignment(id: Guid, volunteerId: Guid, incidentId: Guid, task: string,
                         now: Time): Assignment
  {
    Assignment(id, volunteerId, incidentId, task, DefaultAssignmentStatus, now, None)
  }

  /** The store: one map per `DbSet`, keyed by the entity's id. */
  datatype Registry = Registry(
    users: map<Guid, User>,
    incidents: map<Guid, Incident>,
    volunteers: map<Guid, Volunteer>,
    assignments: map<Guid, Assignment>,
    donations: map<Guid, Donation>)

  const EmptyRegistry := Registry(map[], map[], map[], map[], map[])

  /** Every record is stored under its own id, as EF Core keys it. */
  ghost predicate KeysMatchIds(s: Registry)
  {
    && (forall k :: k in s.users ==> s.users[k].userId == k)
    && (forall k :: k in s.incidents ==> s.incidents[k].incidentId == k)
    && (forall k :: k in s.volunteers ==> s.volunteers[k].volunteerId == k)
    && (forall k :: k in s.assignments ==> s.assignments[k].assignmentId == k)
    && (forall k :: k in s.donations ==> s.donations[k].donationId == k)
  }

  /** No two users hold the same email (exact, case-sensitive comparison). */
  ghost predicate EmailsDistinct(users: map<Guid, User>)
  {
    forall j, k :: j in users && k in users && users[j].email == users[k].email ==> j == k
  }

  /** Every assignment's volunteer and incident are stored records. */
  ghost predicate AssignmentRefsResolve(s: Registry)
  {
    forall k :: k in s.assignments ==>
      s.assignments[k].volunteerId in s.volunteers && s.assignments[k].incidentId in s.incidents
  }

  /** The invariant every reachable store keeps (no operation deletes). */
  ghost predicate Valid(s: Registry)
  {
    KeysMatchIds(s) && EmailsDistinct(s.users) && AssignmentRefsResolve(s)
  }

  /** A fresh application starts from a store that satisfies the invariant. */
  lemma EmptyRegistryValid()
    ensures Valid(EmptyRegistry)
  {
  }
}

=== FILE: scenarios.dfy ===
/** Properties that span several actions: the register / login / `me`
    round trip, the two login failures, an assignment's life from creation
    to completion, and a donation moving between status listings. */
module Scenarios {
  import opened Common
  import opened Models
  import JwtTokens
  import Gate
  import Auth
  import Assignments
  import Incidents
  import Donations
  import Volunteers

  /** Register a fresh email, log in with the same password, then call `me`
      with the issued token in the `token` query parameter before it
      expires: the token is the one the service issues for the new user and
      `me` reports that user with the default role. */
  method RegisterLoginMe(s: Registry, fullName: string, email: string, password: string,
                         h: Auth.Hasher, salt: nat, freshId: Guid,
                         section: JwtTokens.JwtSection, crypto: JwtTokens.Crypto,
                         loginAt: Time, meAt: Time)
    returns (s': Registry, registered: Response<Auth.Registered>,
             login: Response<Auth.LoginBody>, me: Response<Auth.Profile>)
    requires Valid(s) && freshId !in s.users && !Auth.EmailTaken(s.users, email)
    requires Auth.Sound(h) && JwtTokens.WellFormed(crypto)
    requires !IsBlank(email)
    requires meAt <= loginAt + JwtTokens.OptionsFrom(section).expiryMinutes * SecondsPerMinute
    ensures Valid(s') && freshId in s'.users
    ensures registered == Ok(Auth.Registered(freshId, fullName, email))
    ensures login.Ok?
    ensures login.value.token
      == crypto.encode(JwtTokens.Create(JwtTokens.OptionsFrom(section), crypto, s'.users[freshId], loginAt))
    ensures me == Ok(Auth.Profile(freshId, fullName, email, DefaultRole))
  {
    var step := Auth.Register(s, fullName, email, password, h, salt, freshId);
    s', registered := step.0, step.1;
    Auth.RegisterPreservesValid(s, fullName, email, password, h, salt, freshId);
    var user := s'.users[freshId];
    assert h.verify(password, user.passwordHash);
    var o := JwtTokens.OptionsFrom(section);
    login := Auth.Login(s', email, password, h, o, crypto, loginAt);
    assert login.Ok?;
    var k :| k in s'.users && s'.users[k].email == email && h.verify(password, s'.users[k].passwordHash)
             && login.value == Auth.LoginBody(crypto.encode(JwtTokens.Create(o, crypto, s'.users[k], loginAt)));
    assert k == freshId;
    var token := JwtTokens.Create(o, crypto, user, loginAt);
    Gate.IssuedTokenAuthenticates(section, crypto, user, loginAt, meAt, None, None);
    var p := JwtTokens.ValidationFrom(section);
    assert Gate.Authenticate(None, Some(login.value.token), p, crypto, meAt) == Some(token.payload);
    me := Auth.MeRequest(s', None, Some(login.value.token), p, crypto, meAt);
    assert Auth.EmailTaken(s'.users, email) by { assert s'.users[freshId].email == email; }
    var j :| j in s'.users && s'.users[j].email == email && me.value == Auth.ProfileOf(s'.users[j]);
    assert j == freshId;
  }

  /** An unknown email and a wrong password for a known one get the very
      same answer. */
  method LoginFailuresAlike(s: Registry, knownEmail: string, wrongPassword: string,
                            unknownEmail: string, password: string, h: Auth.Hasher,
                            o: JwtTokens.JwtOptions, crypto: JwtTokens.Crypto, now: Time)
    returns (wrong: Response<Auth.LoginBody>, unknown: Response<Auth.LoginBody>)
    requires Valid(s)
    requires forall k :: k in s.users && s.users[k].email == knownEmail ==>
               !h.verify(wrongPassword, s.users[k].passwordHash)
    requires !Auth.EmailTaken(s.users, unknownEmail)
    ensures wrong == unknown == Unauthorized(Some(Auth.InvalidCredentials))
  {
    wrong := Auth.Login(s, knownEmail, wrongPassword, h, o, crypto, now);
    unknown := Auth.Login(s, unknownEmail, password, h, o, crypto, now);
  }

  /** Create a volunteer and an incident from bodies that set only their
      names and type, assign the volunteer to it, then mark the assignment
      completed. The volunteer is stored "Available" and the incident
      "Open" with severity "Low". The assignment is created "Assigned" and
      open, and completion stamps it "Completed" no earlier than it was
      assigned, given a clock that does not run backwards. */
  method AssignmentLifecycle(s: Registry, fullName: string, email: string, incidentType: string,
                             task: string, volunteerId: Guid, incidentId: Guid, assignmentId: Guid,
                             createdAt: Time, assignedAt: Time, completedAt: Time)
    returns (s': Registry, created: Response<Assignment>, completed: Response<Assignment>)
    requires Valid(s)
    requires volunteerId !in s.volunteers && incidentId !in s.incidents && assignmentId !in s.assignments
    requires assignedAt <= completedAt
    ensures Valid(s')
    ensures volunteerId in s'.volunteers && incidentId in s'.incidents
    ensures s'.volunteers[volunteerId].availability == DefaultAvailability
    ensures s'.incidents[incidentId].status == DefaultIncidentStatus
    ensures s'.incidents[incidentId].severity == DefaultSeverity
    ensures created.Created? && created.value.assignmentId == assignmentId
    ensures created.value.status == DefaultAssignmentStatus && created.value.completedDate.None?
    ensures created.value.volunteerId == volunteerId && created.value.incidentId == incidentId
    ensures completed.Ok? && completed.value.status == CompletedStatus
    ensures completed.value.completedDate == Some(completedAt)
    ensures completed.value.completedDate.value >= created.value.assignedDate
  {
    var s1 := Volunteers.Create(s, NewVolunteer(0, fullName, email), volunteerId).0;
    Volunteers.CreatePreservesValid(s, NewVolunteer(0, fullName, email), volunteerId);
    var s2 := Incidents.Create(s1, NewIncident(0, incidentType, 0), createdAt, incidentId).0;
    Incidents.CreatePreservesValid(s1, NewIncident(0, incidentType, 0), createdAt, incidentId);
    var body := NewAssignment(0, volunteerId, incidentId, task, 0);
    var step := Assignments.Create(s2, body, assignedAt, assignmentId);
    Assignments.CreatePreservesValid(s2, body, assignedAt, assignmentId);
    created := step.1;
    var done := Assignments.Complete(step.0, assignmentId, true, completedAt);
    Assignments.CompletePreservesValid(step.0, assignmentId, true, completedAt);
    s', completed := done.0, done.1;
  }

  /** An incident reported with only its type is stored "Open" with
      severity "Low", and the listing filtered by those two values shows
      it. */
  method ReportIncident(s: Registry, incidentType: string, now: Time, freshId: Guid)
    returns (s': Registry, reported: Response<Incident>, open: seq<Incident>)
    requires freshId !in s.incidents
    ensures reported.Created? && reported.value.incidentType == incidentType
    ensures reported.value.status == DefaultIncidentStatus && reported.value.severity == DefaultSeverity
    ensures Incidents.Get(s', freshId) == Ok(reported.value)
    ensures reported.value in open
  {
    var body := NewIncident(0, incidentType, 0);
    var step := Incidents.Create(s, body, now, freshId);
    s', reported := step.0, step.1;
    Incidents.GetAfterCreate(s, body, now, freshId, freshId);
    open := Incidents.List(s', Some(DefaultIncidentStatus), Some(DefaultSeverity));
  }

  /** A donation pledged with only donor, item and quantity is stored
      "Pledged" in "units" and appears in the "Pledged" listing; after its
      status is set to "Received" it appears in the "Received" listing and
      no longer in the "Pledged" one. */
  method DonationStatusFlow(s: Registry, donorName: string, donorEmail: string, itemName: string,
                            quantity: Int32, freshId: Guid, now: Time)
    returns (s': Registry, pledged: seq<Donation>, received: seq<Donation>, pledgedAfter: seq<Donation>)
    requires Valid(s) && freshId !in s.donations
    ensures freshId in s'.donations && s'.donations[freshId].status == "Received"
    ensures s'.donations[freshId].unit == DefaultUnit && s'.donations[freshId].quantity == quantity
    ensures exists i :: 0 <= i < |pledged| && pledged[i].donationId == freshId
    ensures exists i :: 0 <= i < |received| && received[i].donationId == freshId
    ensures forall i :: 0 <= i < |pledgedAfter| ==> pledgedAfter[i].donationId != freshId
  {
    var d := NewDonation(0, donorName, donorEmail, itemName, quantity, 0);
    var s1 := Donations.Create(s, d, now, freshId).0;
    Donations.CreatePreservesValid(s, d, now, freshId);
    pledged := Donations.List(s1, Some(DefaultDonationStatus));
    assert s1.donations[freshId] in pledged;
    s' := Donations.UpdateStatus(s1, freshId, "Received").0;
    received := Donations.List(s', Some("Received"));
    pledgedAfter := Donations.List(s', Some(DefaultDonationStatus));
    assert !IsBlank("Received") by { assert !IsWhiteSpaceChar("Received"[0]); }
    assert !IsBlank("Pledged") by { assert !IsWhiteSpaceChar("Pledged"[0]); }
    Donations.StatusMoveReflectedInListings(s1, freshId, "Pledged", "Received", received, pledgedAfter);
  }
}

=== FILE: volunteers.dfy ===
/** `VolunteersController`: creation and a lookup that answers a miss with
    `Ok(null)` rather than 404. */
module Volunteers {
  import opened Common
  import opened Models

  /** POST api/volunteers: only the id is assigned; no timestamp is set and
      every other submitted field is stored as given. */
  function Create(s: Registry, v: Volunteer, freshId: Guid): (r: (Registry, Response<Volunteer>))
    requires freshId !in s.volunteers
    ensures r.1.Created?
    ensures AddsOne(s.volunteers, r.0.volunteers, freshId)
    ensures r.0 == s.(volunteers := r.0.volunteers)
    ensures r.1.value == r.0.volunteers[freshId]
    ensures r.1.value.volunteerId == freshId
    ensures r.1.value.(volunteerId := v.volunteerId) == v
  {
    var stored := v.(volunteerId := freshId);
    (s.(volunteers := s.volunteers[freshId := stored]), Created(stored))
  }

  /** GET api/volunteers/{id}: `Ok(null)` on a miss, never a 404. */
  function Get(s: Registry, id: Guid): (r: Response<Volunteer>)
    ensures r.Ok? || r.OkNull?
    ensures r.OkNull? <==> id !in s.volunteers
    ensures id in s.volunteers ==> r == Ok(s.volunteers[id])
  {
    if id in s.volunteers then Ok(s.volunteers[id]) else OkNull
  }

  /** Reading back a volunteer just created returns what creation returned. */
  lemma GetAfterCreate(s: Registry, v: Volunteer, freshId: Guid)
    requires freshId !in s.volunteers
    ensures Get(Create(s, v, freshId).0, freshId) == Ok(Create(s, v, freshId).1.value)
  {
  }

  /** Creation keeps the store invariant. */
  lemma CreatePreservesValid(s: Registry, v: Volunteer, freshId: Guid)
    requires Valid(s) && freshId !in s.volunteers
    ensures Valid(Create(s, v, freshId).0)
  {
  }
}
